=== FILE: README.md ===
# dockerly, modelled in Dafny

dockerly is a small Python tool with two parts. The first is `SubprocManager`,
a supervisor that launches named shell commands as child processes and routes
their output to the terminal, to log files or nowhere. It polls the children,
signals their process groups and blocks in `join` until they have all
finished. With kill-on-error set, it kills the whole cohort when one of them
fails. The second part is a pair of Docker wrappers. Each reads a YAML
configuration and builds a `docker run` command line: a `-v` mount of the host
root onto the container root, optional port flags, the image, and the
shell-quoted user command. They can also project the host working directory
into the container (`--workdir`).

The project has these modules:

- `Subproc` (`subproc.dfy`): the supervisor as a state machine over an
  immutable `Manager` value. It covers construction, `launch`, `poll`,
  `poll_all`, `kill`, `kill_all`, the signal handler and the `join` loop.
  - Live processes are replaced by observation functions
    (`Observe = string -> Status`). Each poll sees a process as `Running` or
    `Exited(code)`.
  - Signals are recorded as a log of `Sent(name, signal)` events, one per
    `os.killpg` call.
  - `join` is driven by one observation record per polling round.
- `Dockerly` (`dockerly.dfy`): the newer wrapper class in `dockerly/dockerly.py`.
- `Wrapper` (`wrapper.dfy`): the older class and the console entry points in
  `dockerly/wrapper.py`.
- `DockerConfig` (`docker_config.dfy`): what the two wrappers share. That is
  the YAML values, Python truthiness, the `-v` flag and the container
  working directory.
- `Paths` (`paths.dfy`): `posixpath.join`, `os.path.commonprefix` and
  `is_in_path`.
- `Text` (`text.dfy`): Python's `str.split()`, `' '.join`, `strip()` and
  `lower()`, with the laws that make `' '.join(s.split())` a whitespace
  normaliser.
- `Results` (`results.dfy`): `Option` and `Result`.

Calls into the operating system and libraries are parameters, not code:
- `os.path.realpath`, `os.path.expanduser`, `os.path.relpath`, `shlex.quote`
  and `str()` of a non-string YAML value are fields of the `Host` record;
- `os.environ`, `sys.argv` and `os.getcwd()` are arguments;
- process status is an `Observe` function.

The model follows the code where the code departs from what a reader might
expect. A caller-supplied environment variable does not override an inherited
one. The code runs `env.update(os.environ)` after converting the caller's
values (`dockerly/subproc.py:70-73`), so the inherited value wins for every
key the parent defines. `Subproc.ChildEnv` states that literal order.

## Model

| member | source | states |
|---|---|---|
| `Subproc.ParseOutMode` | dockerly/subproc.py:25 | an accepted stdout mode string is exactly the name of the mode returned; a rejected string names no mode |
| `Subproc.ParseErrMode` | dockerly/subproc.py:26 | the same for the four stderr modes, including `stdout` |
| `Subproc.ModeNamesRoundTrip` | dockerly/subproc.py:25-26 | every mode is accepted under its own name |
| `Subproc.Create` | dockerly/subproc.py:23-34 | construction succeeds iff the lowercased modes are valid and a log directory is given when a raw mode equals `file`; a bad stdout mode is reported first; the registry starts empty, dry-run is off, the modes are the lowercased ones, and a log directory (expanded) is kept exactly when a raw mode is `file` |
| `Subproc.CreateChecked` | dockerly/subproc.py:29-31 | the corrected constructor: success iff the modes are valid and a log directory is given whenever a lowercased mode is `file`, so every manager it builds has a directory for each file-backed stream |
| `Subproc.UppercaseFileSkipsLogDir` | dockerly/subproc.py:29 | as written, stdout mode `FILE` with no log directory is accepted as file mode without a directory, and the first launch then fails for want of one |
| `Subproc.CheckedLaunchSucceeds` | dockerly/subproc.py:50-58 | the first launch into a manager from the corrected constructor always succeeds and leaves exactly that one entry registered |
| `Subproc.StdoutSink` | dockerly/subproc.py:50-55 | file mode writes to a path ending in `<name>.out`: under the log directory for a relative name, and `<name>.out` itself for an absolute one (which replaces the log directory), and fails only without a log directory; print inherits; none discards |
| `Subproc.StderrSink` | dockerly/subproc.py:57-64 | file mode writes to a path ending in `<name>.err`: under the log directory for a relative name, and `<name>.err` itself for an absolute one; print inherits; stdout merges into stdout; none discards; each sink occurs for exactly its own mode |
| `Subproc.LogPathsDistinct` | dockerly/subproc.py:51-58 | different relative names get different `.out` and different `.err` path strings, and no `.out` path is an `.err` path; these are strings, not files: `a` and `./a` differ as names but open the same file, and an absolute name escapes the log directory altogether |
| `Subproc.ChildEnv` | dockerly/subproc.py:66-73 | the child sees the union of the caller's and the parent's keys; the parent's value wins for every key it defines; a caller-only key keeps its `str()`-converted value |
| `Subproc.Launch` | dockerly/subproc.py:36-87 | dry-run changes nothing and returns no handle; a registered name fails with a duplicate error; a fresh name with a usable log directory always succeeds; a fresh name without a needed log directory fails with that error; success appends exactly one entry with the given name, command and merged environment and returns it as the handle, whose stdout and stderr are the sinks the two modes select for that name |
| `Subproc.FirstLaunch` | dockerly/subproc.py:46-87 | the first launch into an empty, live manager whose file modes have a log directory succeeds and registers just that process |
| `Subproc.LaunchAddsOneName` | dockerly/subproc.py:49-86 | a successful launch keeps names unique, leaves earlier entries in place and adds exactly the new name (nothing in dry-run mode) |
| `Subproc.Poll` | dockerly/subproc.py:89-97 | polling succeeds iff the name is registered and then reports the observed status; otherwise it fails naming the process |
| `Subproc.PollAll` | dockerly/subproc.py:99-100 | the result has exactly the registered names as keys, and each value is what `poll` reports |
| `Subproc.Kill` | dockerly/subproc.py:102-110 | an unknown name fails; a registered running process gets exactly one signal; an exited one gets none; it raises after sending iff verbose and the signal has no name in the table |
| `Subproc.KillEach` | dockerly/subproc.py:113-119 | over registered names, every signal it sends is that signal to a running one of those names; it sends the signal to exactly the running ones in order, unless the signal is unnamed and verbose is on, when it raises right after the first running one |
| `Subproc.KillAll` | dockerly/subproc.py:112-119 | whatever the table and verbosity, every SIGTERM goes to a registered process running at the first observation and every SIGKILL to one still running at the second; with SIGTERM named or verbose off, the signals sent open with SIGTERM to every process running at the first observation; when both signals are named or verbose is off, it then sends SIGKILL to every process running at the second and never raises |
| `Subproc.SigkillOnlyToSurvivors` | dockerly/subproc.py:112-119 | when verbose is off or both signals are named (so not in the program's own verbose calls with its table, see `Subproc.KillAllVerboseFaults`): SIGKILL reaches a process iff it is registered and still running after the grace period, and SIGTERM reaches one iff it was running before |
| `Subproc.SignalsOnlyToRunning` | dockerly/subproc.py:102-119 | for every table and verbosity: SIGTERM reaches only a registered process running before the grace period and SIGKILL only one running after it; with SIGTERM named or verbose off, SIGTERM reaches exactly the registered processes running before |
| `Subproc.HandleSignal` | dockerly/subproc.py:132-136 | the handler's verbose `kill_all` completes iff SIGKILL is named or no process survives the grace period; it begins with SIGTERM to every process running at the first observation (the program's table names SIGTERM) |
| `Subproc.SigDictNames` | dockerly/subproc.py:121-130 | the table names SIGTERM but not SIGKILL; the corrected table names both |
| `Subproc.KillAllVerboseFaults` | dockerly/subproc.py:118-119 | as written, a verbose `kill_all` raises iff some process survives the grace period, after SIGKILL has reached only the first survivor |
| `Subproc.KillAllFixedNeverFaults` | dockerly/subproc.py:121-130 | with SIGKILL named in the table, `kill_all` never raises, verbose or not |
| `Subproc.JoinRound` | dockerly/subproc.py:151-167 | a pass that does not stop keeps exactly the running names pending, in order; a pass stops only under kill-on-error and then empties the pending list; every reported name comes from the pending list |
| `Subproc.JoinFrom` | dockerly/subproc.py:150-168 | further rounds only add reports and signals; without kill-on-error and with no fault they add no signal and raise nothing; a round that sends signals happened under kill-on-error and leaves nothing pending |
| `Subproc.JoinAll` | dockerly/subproc.py:138-168 | `join` without kill-on-error sends no signal and never raises; any signal it sends comes from kill-on-error after a failure has been reported, and leaves the pending list empty |
| `Subproc.JoinReportsObserved` | dockerly/subproc.py:151-162 | every report `join` prints is what the poll of some round saw for that process: `DONE` for exit code 0, the code otherwise |
| `Subproc.JoinRoundReports` | dockerly/subproc.py:153-162 | every report matches the poll: `DONE` for exit code 0, the code itself for any other exit |
| `Subproc.JoinRoundStops` | dockerly/subproc.py:160-167 | a stopped pass ends on the failure that stopped it; under kill-on-error any failure report stops the pass |
| `Subproc.JoinRoundStopsIff` | dockerly/subproc.py:151-167 | a pass stops if and only if kill-on-error is set and some pending process exited with a non-zero code |
| `Subproc.JoinRoundCovers` | dockerly/subproc.py:151-157 | a pass that does not stop leaves every pending name either still pending or reported |
| `Subproc.JoinRoundDistinct` | dockerly/subproc.py:149-157 | over a distinct pending list, no name is reported twice or both reported and kept pending |
| `Subproc.RoundKeepsInv` | dockerly/subproc.py:150-167 | one polling round preserves the join invariant: distinct reports, disjoint from pending, all registered; until kill-on-error meets a failure, full coverage and no signal or error; empty pending after a failure under kill-on-error |
| `Subproc.JoinFromKeepsInv` | dockerly/subproc.py:150-168 | any number of rounds preserves the join invariant |
| `Subproc.JoinReportsOnce` | dockerly/subproc.py:138-168 | with unique names, `join` reports each registered process at most once and never one still pending; without kill-on-error it sends no signal and every process is reported or pending; under kill-on-error a failure report means the pending list is empty, and with no failure reported it has sent no signal, raised nothing and left every process reported or pending |
| `Subproc.FailureKillsAll` | dockerly/subproc.py:160-167 | under kill-on-error, a first poll that finds a failed process reports a failure, empties the pending list and sends exactly the signals of a verbose `kill_all`, raising what it raises |
| `Text.Words` | dockerly/dockerly.py:80 | `split()` yields non-empty whitespace-free tokens, and none at all exactly for an all-whitespace string |
| `Text.WordsAppend` | dockerly/dockerly.py:71-80 | splitting distributes over a concatenation whose seam is whitespace |
| `Text.JoinWordsRoundTrip` | dockerly/dockerly.py:80 | splitting a space-join of whitespace-free tokens gives back the tokens |
| `Text.JoinWordsNormalized` | dockerly/dockerly.py:80 | a space-join of tokens has no edge whitespace and only single plain spaces |
| `Text.Normalize` | dockerly/dockerly.py:79-80 | `' '.join(s.split())` is in normal form and has the same tokens as `s` |
| `Text.NormalizedIsJoin` | dockerly/dockerly.py:80 | a string in normal form is the space-join of its own tokens |
| `Text.NormalizeFixpoint` | dockerly/dockerly.py:80 | normalising a normalised line leaves it unchanged |
| `Text.NormalizeIdempotent` | dockerly/dockerly.py:80 | normalising twice is normalising once |
| `Text.Strip` | dockerly/wrapper.py:92 | `strip()` yields the part of the input that follows its leading whitespace and is followed only by whitespace, and it neither starts nor ends with whitespace |
| `Text.Lower` | dockerly/subproc.py:23-24 | ASCII lower-casing: it keeps the length, leaves no ASCII letter `A`-`Z`, maps each of them to its lower-case letter and keeps every other character |
| `Text.WordsOfJoin` | dockerly/wrapper.py:86 | splitting a space-join gives the tokens of each part in order, whatever the parts contain |
| `Text.StripEmptyIffAllSpace` | dockerly/wrapper.py:92 | `strip()` is empty exactly for all-whitespace input |
| `Paths.PathJoin` | dockerly/dockerly.py:91 | an absolute second component is the result; a relative one is appended to the first, with a `/` inserted exactly when the first is non-empty and does not already end in one |
| `Paths.WithTrailingSep` | dockerly/dockerly.py:12 | joining with `''` adds one separator unless the path is empty or already ends in one, and then leaves it unchanged |
| `Paths.CommonPrefix` | dockerly/dockerly.py:17 | the common prefix is a prefix of both inputs and is maximal |
| `Paths.IsInPath` | dockerly/dockerly.py:7-17 | the test holds iff the resolved folder plus separator is a prefix of the resolved file |
| `Paths.FolderNotInItself` | dockerly/dockerly.py:7-17 | a folder is not inside itself (except the root) |
| `Paths.SiblingNotInPath` | dockerly/dockerly.py:7-17 | a sibling sharing a name prefix, like `/a/bc` next to `/a/b`, is not inside |
| `Paths.DescendantInPath` | dockerly/dockerly.py:7-17 | anything below the separator-terminated folder is inside |
| `DockerConfig.FirstMissing` | dockerly/dockerly.py:28-29 | the first key the configuration lacks, in the order checked, and none exactly when all are present |
| `DockerConfig.RequiredKeysPresent` | dockerly/dockerly.py:28-29 | no required key is missing iff all three are present |
| `DockerConfig.MountFlag` | dockerly/dockerly.py:49-55 | `-v <expanded host>:<container>:<opt>` where the option is `ro` iff read-only and `rw` otherwise |
| `DockerConfig.RunVerbWords` | dockerly/dockerly.py:71 | the fixed flags split into `run`, `-ti`, `--privileged` |
| `DockerConfig.ContainerCwd` | dockerly/dockerly.py:90-91 | the projected container directory is absolute whenever the container root is |
| `DockerConfig.Truthy` | dockerly/dockerly.py:40 | a YAML value is falsy exactly when it is the empty string, zero, `false`, null or the empty list |
| `Dockerly.DockerExe` | dockerly/dockerly.py:40 | `nvidia-docker` iff the `nvidia` value is truthy, else `docker` |
| `Dockerly.New` | dockerly/dockerly.py:28-40 | construction succeeds iff the required keys are present, no value is the placeholder, `container_root` is an absolute string, `host_root` is a string and `ports` and `nvidia` exist; a missing key is reported before a placeholder; the fields hold the resolved roots, the raw ports and image, and the executable chosen by the `nvidia` value |
| `Dockerly.PortSpecs` | dockerly/dockerly.py:59 | iterating `ports` works iff it is a list or a string; the specs are the list's items rendered with `str()`, one per item in order, or the string's characters one by one |
| `Dockerly.PortsFlag` | dockerly/dockerly.py:57-61 | the port flag is empty iff there are no ports, and it splits into `-p <spec>` per port in order |
| `Dockerly.RawCommandWords` | dockerly/dockerly.py:71-78 | the formatted line splits into executable, fixed flags, other options, mount, port flags, image and quoted command |
| `Dockerly.Run` | dockerly/dockerly.py:67-81 | it succeeds iff `ports` is iterable; the line is in normal form and is exactly those tokens joined by single spaces |
| `Dockerly.RunFromCwd` | dockerly/dockerly.py:83-92 | a working directory outside the host root is refused; otherwise the line is in normal form (single spaces, no blank words) and is exactly the tokens of `run`, with `--workdir` of the projected directory as the only extra option, joined by single spaces |
| `Wrapper.New` | dockerly/wrapper.py:28-34 | construction succeeds iff the required keys are present, `container_root` is an absolute string and `host_root` is a string, with no placeholder check; a missing key is reported first |
| `Wrapper.DockerRunWords` | dockerly/wrapper.py:56 | the fixed prefix splits into `docker`, `run`, `-ti`, `--privileged` |
| `Wrapper.RunLineWords` | dockerly/wrapper.py:56-60 | the formatted line splits into prefix, mount, image and quoted command |
| `Wrapper.Run` | dockerly/wrapper.py:55-61 | the line ends with a space and the quoted command as quoted, and has the prefix, mount, image and command tokens |
| `Wrapper.RunFromCwd` | dockerly/wrapper.py:63-78 | success iff the working directory is inside the host root, else the outside-root error; the line starts with the prefix and `--workdir`, ends with the quoted command, and splits into the prefix, the `--workdir` option, mount flag, image and quoted command tokens |
| `Wrapper.CollectSysargs` | dockerly/wrapper.py:81-86 | one argument is passed through verbatim; none gives the empty command |
| `Wrapper.CollectSysargsWords` | dockerly/wrapper.py:81-86 | with zero or several arguments, the command splits into the tokens of each quoted argument, in argument order |
| `Wrapper.CollectSysargsTokens` | dockerly/wrapper.py:86 | with zero or several arguments whose quoted forms contain no whitespace, the command splits back into exactly the quoted arguments |
| `Wrapper.DefaultToBash` | dockerly/wrapper.py:92-93 | a blank command becomes `bash`, any other is kept |
| `Wrapper.MainExec` | dockerly/wrapper.py:89-94 | it succeeds iff the configuration is acceptable; no arguments or one blank argument run `bash`; one non-blank argument runs as given |
| `Wrapper.MainBash` | dockerly/wrapper.py:97-102 | it succeeds iff the configuration is acceptable and the working directory is inside the host root; no arguments or one blank argument run `bash`; one non-blank argument runs as given |
| `Wrapper.MainPython` | dockerly/wrapper.py:105-108 | it runs `python <args>` with no `bash` default, so no arguments run `python ` alone |
| `Wrapper.PlaceholderOnlyRefusedByNewer` | dockerly/dockerly.py:30-32 | a configuration whose image is still the placeholder is accepted by the older class and refused by the newer one |
| `Wrapper.RunAgreesWithNewer` | dockerly/dockerly.py:71-80 | with no ports, no extra options and plain `docker`, the newer class's line is the older class's line with its whitespace collapsed |

## Left out

- Process creation (`subprocess.Popen` with `/bin/bash`, `os.setsid`), opening log files, `os.makedirs`, `os.getpgid` and the actual delivery of signals: replaced by the `Observe` oracle and the `Sent` log.
- Printing (the dry-run echo, the `Sent ... to group` lines, the DONE and error lines): reports are returned as values instead.
- The `time.sleep` calls: the grace period of `kill_all` and the poll interval of `join` are the gap between two observations.
- Installing signal handlers with `signal.signal` and the handler's `sys.exit(0)`: `Subproc.HandleSignal` models only the handler's `kill_all`.
- Subproc.Launch: `launch` mutates the caller's own `env` dict in place: the `str()` conversion rewrites its values, and `env.update(os.environ)` (dockerly/subproc.py:73) merges the parent environment into it, so after the call that dict is the child's merged environment. The model returns the merged map and leaves the caller's value unchanged. A non-dict `env`, which fails an assertion, cannot be expressed with the typed parameter.
- Python `assert` statements are taken to be enabled. Under `python -O` they vanish: the mode, log-directory, duplicate-name and unknown-name checks of dockerly/subproc.py, and the missing-key, absolute-path and `is_in_path` checks of dockerly/dockerly.py and dockerly/wrapper.py, would no longer raise. The model's error results follow the assertions.
- Subproc.JoinAll: the loop may never end when a process never exits; the model runs a given finite list of rounds, and a `join` that is still blocked ends with names pending.
- Text.Lower: lowercases the ASCII letters `A`-`Z` only. Python's `str.lower()` also maps other cased letters (`É` to `é`) and can lengthen a string (`İ` becomes two characters), so the model keeps such characters unchanged. For the only use, membership in the mode names, the result is the same: the only non-ASCII character that lowercases to ASCII letters alone is the Kelvin sign, which gives `k`, and no mode name contains `k`; `İ` gives `i` followed by a combining dot, which matches no mode name.
- Subproc.Create: inherits the ASCII-only `lower()` of `Text.Lower`; acceptance of a mode name is unaffected, for the reason given there.
- The Docker wrappers' `os.system` call and `dry_run` echo, and the `FileNotFoundError` path of loading the configuration file: side effects outside the model.
- Loading YAML: the configuration is given as a map of values (strings, integers, booleans, null, lists); nested maps and floats are not represented, and `str()` of a non-string value is the `Host.show` oracle.
- BeneDict attribute access on a missing key (`config.ports`, `config.nvidia`) is modelled as a failure, as for a plain attribute error; BeneDict is not part of this model.
- Wrapper.CollectSysargsTokens: holds only when no quoted argument contains whitespace; `shlex.quote` is an oracle here, so its output is not known to be a single token, and `Wrapper.CollectSysargsWords` states the general case.
- Dockerly.New: when several values are the placeholder, the code's error names the first in the file's order; the model reports only that a placeholder is present.
- `dockerly/main.py`, `setup.py` and `dockerly/assets/entrypoint.py` (argument parsing, packaging, the container entry script) are not part of this model.

## Findings

| source | as written | input that shows it | evidently intended | confidence | as-written member | corrected member |
|---|---|---|---|---|---|---|
| dockerly/subproc.py:29 | the log-directory requirement tests the modes as passed, before lowercasing, while the mode checks use the lowercased values | `stdout_mode='FILE'`, `log_dir=None`: construction succeeds in file mode with no log directory, and the first `launch` fails in `os.path.join(None, ...)` | test the lowercased modes, so file mode always has a log directory | high, not executed | `Subproc.UppercaseFileSkipsLogDir` | `Subproc.CreateChecked` |
| dockerly/subproc.py:121-130 | `SIG_DICT` has no entry for SIGKILL, yet a verbose `kill` looks the signal's name up after sending it | `kill_all(verbose=True)` (from `join` with kill-on-error, or from the signal handler) while one process ignores SIGTERM: SIGKILL reaches it, then `SIG_DICT[SIGKILL]` raises `KeyError`, and any further survivors are never killed | name SIGKILL in the table, so the forced kill reaches every survivor and `kill_all` completes | high, not executed | `Subproc.KillAllVerboseFaults` | `Subproc.KillAllFixedNeverFaults` |

=== FILE: docker_config.dfy ===
/** What the two `Dockerly` versions share: the loaded YAML configuration,
    Python truthiness and `str()` of its values, the host-side library calls
    (treated as uninterpreted functions) and the `-v` mount flag. */
module DockerConfig {
  import opened Results
  import opened Paths
  import opened Text

  /** A value of the loaded YAML configuration. */
  datatype Value =
    | Str(s: string)
    | Int(i: int)
    | Bool(b: bool)
    | Null
    | List(items: seq<Value>)

  /** The loaded configuration file: key to value. */
  type Config = map<string, Value>

  /** Library and OS calls the wrappers make, as uninterpreted functions:
      `os.path.realpath`, `os.path.expanduser`, `os.path.relpath(path, start)`,
      `shlex.quote`, and `str()` of a non-string YAML value. */
  datatype Host = Host(
    realpath: string -> string,
    expanduser: string -> string,
    relpath: (string, string) -> string,
    quote: string -> string,
    show: Value -> string)

  /** Why constructing a wrapper or assembling a command fails. */
  datatype ConfigError =
    | MissingKey(key: string)          // `assert key in self.config`
    | Unfilled                         // a value left as the template placeholder
    | NotText(key: string)             // a path value that is not a string (TypeError)
    | NotAbsolute(path: string)        // `assert os.path.isabs(container_root)`
    | MissingAttribute(key: string)    // attribute access on an absent key
    | NotIterable(key: string)         // iterating a scalar `ports` value
    | OutsideHostRoot(cwd: string)     // `assert is_in_path(cwd, host_root)`

  /** The placeholder the configuration template asks users to replace. */
  const Placeholder: string := "_fill_yours_"

  /** The keys both constructors insist on, in the order they are checked. */
  const RequiredKeys: seq<string> := ["container_root", "host_root", "default_image"]

  /** The three required keys are all present. */
  predicate HasRequiredKeys(config: Config) {
    "container_root" in config && "host_root" in config && "default_image" in config
  }

  /** No required key is missing exactly when all three are present. */
  lemma RequiredKeysPresent(config: Config)
    ensures FirstMissing(config, RequiredKeys).None? <==> HasRequiredKeys(config)
  {
    assert RequiredKeys[0] == "container_root";
    assert RequiredKeys[1] == "host_root";
    assert RequiredKeys[2] == "default_image";
  }

  /** `'{}'.format(v)`: a string renders as itself, anything else through `str()`. */
  function Render(host: Host, v: Value): string {
    if v.Str? then v.s else host.show(v)
  }

  /** Python truthiness of a YAML value: the falsy values are exactly the
      empty string, zero, `false`, null and the empty list. */
  function Truthy(v: Value): (b: bool)
    ensures !b <==> v == Str("") || v == Int(0) || v == Bool(false) || v == Null || v == List([])
  {
    match v
    case Str(s) => |s| > 0
    case Int(i) => i != 0
    case Bool(b) => b
    case Null => false
    case List(items) => |items| > 0
  }

  /** The first of `keys` that the configuration lacks, if any. */
  function FirstMissing(config: Config, keys: seq<string>): (r: Option<string>)
    ensures r.None? <==> forall i :: 0 <= i < |keys| ==> keys[i] in config
    ensures r.Some? ==> r.value !in config && r.value in keys
    ensures r.Some? ==> exists i :: 0 <= i < |keys| && keys[i] == r.value
                                   && forall j :: 0 <= j < i ==> keys[j] in config
  {
    if |keys| == 0 then None
    else if keys[0] !in config then Some(keys[0])
    else
      var r := FirstMissing(config, keys[1..]);
      if r.Some? then
        var i :| 0 <= i < |keys[1..]| && keys[1..][i] == r.value
                 && forall j :: 0 <= j < i ==> keys[1..][j] in config;
        assert keys[i + 1] == r.value;
        r
      else r
  }

  /** `_mount_flag` / `get_mount_option`: `-v <host>:<container>:<ro|rw>`,
      with `~` in the host path expanded. */
  function MountFlag(host: Host, hostRoot: string, containerRoot: string, readOnly: bool): (r: string)
    ensures |r| > 6 && r[..3] == "-v "
    ensures r[|r| - 3..] == ":ro" <==> readOnly
    ensures r[|r| - 3..] == ":rw" <==> !readOnly
    ensures r[3..|r| - 3] == host.expanduser(hostRoot) + ":" + containerRoot
  {
    var option := if readOnly then "ro" else "rw";
    var r := "-v " + host.expanduser(hostRoot) + ":" + containerRoot + ":" + option;
    assert r[|r| - 3..] == ":" + option;
    assert (":ro")[2] != (":rw")[2];
    r
  }

  /** The three fixed flags every `docker run` line carries after the
      executable. */
  const RunWord: string := "run"
  const TtyFlag: string := "-ti"
  const PrivilegedFlag: string := "--privileged"

  /** The fixed flags as formatted, and as tokens. */
  const RunVerb: string := RunWord + " " + TtyFlag + " " + PrivilegedFlag
  const RunFlags: seq<string> := [RunWord, TtyFlag, PrivilegedFlag]

  lemma RunVerbWords()
    ensures Words(RunVerb) == RunFlags
  {
    FlagsAreWords();
    ThreeWords(RunWord, TtyFlag, PrivilegedFlag);
  }

  /** Each fixed flag is one token. */
  lemma FlagsAreWords()
    ensures IsWord(RunWord) && IsWord(TtyFlag) && IsWord(PrivilegedFlag)
  {
  }

  /** `--workdir="<path>"`. */
  function Workdir(path: string): string {
    "--workdir=\"" + path + "\""
  }

  /** The container directory the host working directory projects onto:
      `os.path.join(container_root, os.path.relpath(cwd, host_root))`. It is
      absolute whenever the container root is. */
  function ContainerCwd(host: Host, containerRoot: string, hostRoot: string, cwd: string): (r: string)
    ensures IsAbs(containerRoot) ==> IsAbs(r)
  {
    PathJoin(containerRoot, host.relpath(cwd, hostRoot))
  }
}

=== FILE: dockerly.dfy ===
/** The newer `Dockerly` class (dockerly/dockerly.py): validates the YAML
    configuration, then assembles `docker run` command lines, collapsing all
    whitespace runs of the assembled line into single spaces. Executing the
    line (`os.system`) and the dry-run echo are side effects left out. */
module Dockerly {
  import opened Results
  import opened Text
  import opened Paths
  import opened DockerConfig

  /** A constructed wrapper: the resolved roots, the raw `ports` and
      `default_image` values, and the chosen Docker executable. */
  datatype Dockerly = Dockerly(
    containerRoot: string,
    hostRoot: string,
    ports: Value,
    defaultImage: Value,
    exe: string)

  /** Some configuration value is still the template placeholder. */
  predicate HasPlaceholder(config: Config) {
    exists k :: k in config && config[k] == Str(Placeholder)
  }

  /** Everything the constructor checks, in one place. */
  predicate Acceptable(config: Config) {
    && HasRequiredKeys(config)
    && !HasPlaceholder(config)
    && config["container_root"].Str? && IsAbs(config["container_root"].s)
    && config["host_root"].Str?
    && "ports" in config
    && "nvidia" in config
  }

  /** `_docker_exe`: `nvidia-docker` exactly when the `nvidia` value is truthy. */
  function DockerExe(nvidia: Value): (r: string)
    ensures r == "nvidia-docker" <==> Truthy(nvidia)
    ensures r == "docker" <==> !Truthy(nvidia)
  {
    if Truthy(nvidia) then "nvidia-docker" else "docker"
  }

  /** `Dockerly.__init__` after the file is loaded: required keys, no
      placeholder value, an absolute string `container_root`, a string
      `host_root` (resolved through `expanduser` then `realpath`), and the
      `ports` and `nvidia` attributes. */
  function New(config: Config, host: Host): (r: Result<Dockerly, ConfigError>)
    ensures r.Success? <==> Acceptable(config)
    ensures FirstMissing(config, RequiredKeys).Some? ==>
              r == Failure(MissingKey(FirstMissing(config, RequiredKeys).value))
    ensures FirstMissing(config, RequiredKeys).None? && HasPlaceholder(config) ==>
              r == Failure(Unfilled)
    ensures r.Success? ==>
              && r.value.containerRoot == config["container_root"].s
              && IsAbs(r.value.containerRoot)
              && r.value.hostRoot == host.realpath(host.expanduser(config["host_root"].s))
              && r.value.ports == config["ports"]
              && r.value.defaultImage == config["default_image"]
              && r.value.exe == DockerExe(config["nvidia"])
  {
    var missing := FirstMissing(config, RequiredKeys);
    RequiredKeysPresent(config);
    if missing.Some? then Failure(MissingKey(missing.value))
    else if HasPlaceholder(config) then Failure(Unfilled)
    else if !config["container_root"].Str? then Failure(NotText("container_root"))
    else if !IsAbs(config["container_root"].s) then Failure(NotAbsolute(config["container_root"].s))
    else if !config["host_root"].Str? then Failure(NotText("host_root"))
    else if "ports" !in config then Failure(MissingAttribute("ports"))
    else if "nvidia" !in config then Failure(MissingAttribute("nvidia"))
    else
      Success(Dockerly(
        config["container_root"].s,
        host.realpath(host.expanduser(config["host_root"].s)),
        config["ports"],
        config["default_image"],
        DockerExe(config["nvidia"])))
  }

  /** The entries `for port_spec in self.ports` visits, each as `'{}'.format`
      renders it: a list yields its items, a string its characters, and any
      other value cannot be iterated. */
  function PortSpecs(host: Host, ports: Value): (r: Result<seq<string>, ConfigError>)
    ensures r.Success? <==> ports.List? || ports.Str?
    ensures ports.List? ==> r.Success? && |r.value| == |ports.items|
    ensures ports.Str? ==> r.Success? && |r.value| == |ports.s|
    ensures ports.List? ==> forall i :: 0 <= i < |ports.items| ==> r.value[i] == Render(host, ports.items[i])
    ensures ports.Str? ==> forall i :: 0 <= i < |ports.s| ==> r.value[i] == [ports.s[i]]
  {
    match ports
    case List(items) => Success(seq(|items|, i requires 0 <= i < |items| => Render(host, items[i])))
    case Str(s) => Success(seq(|s|, i requires 0 <= i < |s| => [s[i]]))
    case _ => Failure(NotIterable("ports"))
  }

  /** The tokens `-p <spec>` contributes for each port, in order. */
  function PortTokens(specs: seq<string>): seq<string> {
    if |specs| == 0 then [] else [PortOption] + Words(specs[0]) + PortTokens(specs[1..])
  }

  /** The option that introduces each port spec. */
  const PortOption: string := "-p"

  /** `_ports_flag`: `-p <spec> ` for each port spec, concatenated in order. */
  function PortsFlag(specs: seq<string>): (r: string)
    ensures r == "" <==> |specs| == 0
    ensures Words(r) == PortTokens(specs)
  {
    if |specs| == 0 then ""
    else
      PortOptionIsWord();
      OptionWords(PortOption, specs[0], PortsFlag(specs[1..]));
      PortOption + " " + specs[0] + " " + PortsFlag(specs[1..])
  }

  /** A one-token option, its value and the rest, joined by spaces, split
      into the option, the value's tokens and the rest's tokens. */
  lemma OptionWords(option: string, value: string, rest: string)
    requires IsWord(option)
    ensures Words(option + " " + value + " " + rest) == [option] + Words(value) + Words(rest)
  {
    WordsSpaceJoin(option + " " + value, rest);
    WordsSpaceJoin(option, value);
    WordsOfWord(option);
  }

  lemma PortOptionIsWord()
    ensures IsWord(PortOption)
  {
  }

  /** The line `run` formats, before whitespace is collapsed. */
  function RawCommand(d: Dockerly, host: Host, cmd: string, others: seq<string>, ports: string): string {
    d.exe + " " + RunVerb + " " + Join(" ", others)
    + " " + MountFlag(host, d.hostRoot, d.containerRoot, false)
    + " " + ports + " " + Render(host, d.defaultImage) + " " + host.quote(cmd)
  }

  /** The tokens of a `run` line, in order: executable, `run -ti
      --privileged`, the other options, the read-write mount flag, the port
      flags, the image and the quoted command. */
  function RunTokens(d: Dockerly, host: Host, cmd: string, others: seq<string>, specs: seq<string>): seq<string> {
    Words(d.exe) + RunFlags + Words(Join(" ", others))
    + Words(MountFlag(host, d.hostRoot, d.containerRoot, false))
    + PortTokens(specs) + Words(Render(host, d.defaultImage)) + Words(host.quote(cmd))
  }

  /** Splitting the raw line yields the run tokens: no token of one field
      runs into the next, because the fields are space-separated. */
  lemma RawCommandWords(d: Dockerly, host: Host, cmd: string, others: seq<string>, specs: seq<string>)
    ensures Words(RawCommand(d, host, cmd, others, PortsFlag(specs))) == RunTokens(d, host, cmd, others, specs)
  {
    var p0 := d.exe;
    var p1 := p0 + " " + RunVerb;
    var p2 := p1 + " " + Join(" ", others);
    var p3 := p2 + " " + MountFlag(host, d.hostRoot, d.containerRoot, false);
    var p4 := p3 + " " + PortsFlag(specs);
    var p5 := p4 + " " + Render(host, d.defaultImage);
    WordsSpaceJoin(p0, RunVerb);
    RunVerbWords();
    WordsSpaceJoin(p1, Join(" ", others));
    WordsSpaceJoin(p2, MountFlag(host, d.hostRoot, d.containerRoot, false));
    WordsSpaceJoin(p3, PortsFlag(specs));
    WordsSpaceJoin(p4, Render(host, d.defaultImage));
    WordsSpaceJoin(p5, host.quote(cmd));
  }

  /** `run(cmd, *other_options)`: the formatted line with every whitespace
      run collapsed. It fails only when `ports` cannot be iterated; otherwise
      it is exactly the run tokens joined by single spaces, so whitespace
      inside the quoted command is collapsed as well. */
  function Run(d: Dockerly, host: Host, cmd: string, others: seq<string>): (r: Result<string, ConfigError>)
    ensures r.Success? <==> d.ports.List? || d.ports.Str?
    ensures r.Success? ==> Normalized(r.value)
    ensures r.Success? ==>
              Words(r.value) == RunTokens(d, host, cmd, others, PortSpecs(host, d.ports).value)
    ensures r.Success? ==>
              r.value == Join(" ", RunTokens(d, host, cmd, others, PortSpecs(host, d.ports).value))
  {
    var specs :- PortSpecs(host, d.ports);
    var line := Normalize(RawCommand(d, host, cmd, others, PortsFlag(specs)));
    RawCommandWords(d, host, cmd, others, specs);
    NormalizedIsJoin(line);
    Success(line)
  }

  /** `run_from_cwd(cmd)`: refuses a working directory outside `host_root`;
      otherwise runs with `--workdir` set to the projected directory as the
      only extra option. */
  function RunFromCwd(d: Dockerly, host: Host, cmd: string, cwd: string): (r: Result<string, ConfigError>)
    ensures !IsInPath(host.realpath, cwd, d.hostRoot) ==> r == Failure(OutsideHostRoot(cwd))
    ensures r.Success? <==>
              IsInPath(host.realpath, cwd, d.hostRoot) && (d.ports.List? || d.ports.Str?)
    ensures r.Success? ==>
              Words(r.value) == RunTokens(d, host, cmd, [Workdir(ContainerCwd(host, d.containerRoot, d.hostRoot, cwd))],
                                          PortSpecs(host, d.ports).value)
    ensures r.Success? ==> Normalized(r.value)
    ensures r.Success? ==>
              r.value == Join(" ", RunTokens(d, host, cmd, [Workdir(ContainerCwd(host, d.containerRoot, d.hostRoot, cwd))],
                                             PortSpecs(host, d.ports).value))
  {
    if !IsInPath(host.realpath, cwd, d.hostRoot) then Failure(OutsideHostRoot(cwd))
    else Run(d, host, cmd, [Workdir(ContainerCwd(host, d.containerRoot, d.hostRoot, cwd))])
  }
}

=== FILE: paths.dfy ===
/** POSIX path string logic used by both Docker wrappers: `posixpath.join`,
    `os.path.commonprefix`, `os.path.isabs` and the `is_in_path` test built
    on them. `os.path.realpath` is a parameter: the file system is not part
    of this model. */
module Paths {

  /** `os.path.isabs` on POSIX: the path starts with a slash. */
  predicate IsAbs(p: string) {
    |p| > 0 && p[0] == '/'
  }

  /** `posixpath.join(a, b)` for two components: an absolute `b` replaces
      `a`; otherwise `b` is appended, with a slash unless `a` is empty or
      already ends with one. */
  function PathJoin(a: string, b: string): (r: string)
    ensures |r| >= |b| && r[|r| - |b|..] == b
    ensures !IsAbs(b) ==> |r| >= |a| && r[..|a|] == a
    ensures IsAbs(a) || IsAbs(b) ==> IsAbs(r)
    ensures IsAbs(b) ==> r == b
    ensures !IsAbs(b) ==> r == a + b || r == a + "/" + b
    ensures !IsAbs(b) ==> (r == a + b <==> |a| == 0 || a[|a| - 1] == '/')
  {
    if IsAbs(b) then b
    else if |a| == 0 || a[|a| - 1] == '/' then a + b
    else a + "/" + b
  }

  /** `os.path.join(p, '')`: `p` with exactly one trailing separator
      added unless it already ends with one (the empty path stays empty). */
  function WithTrailingSep(p: string): (r: string)
    ensures r == p || r == p + "/"
    ensures |p| > 0 ==> |r| > 0 && r[|r| - 1] == '/'
    ensures |p| > 0 && p[|p| - 1] != '/' ==> r == p + "/"
    ensures |p| == 0 || p[|p| - 1] == '/' ==> r == p
  {
    PathJoin(p, "")
  }

  /** `os.path.commonprefix` of two strings: their longest common prefix. */
  function CommonPrefix(a: string, b: string): (r: string)
    ensures r <= a && r <= b
    ensures |r| < |a| && |r| < |b| ==> a[|r|] != b[|r|]
  {
    if |a| == 0 || |b| == 0 || a[0] != b[0] then ""
    else [a[0]] + CommonPrefix(a[1..], b[1..])
  }

  /** `is_in_path(file, folder)`: after resolving both through `realpath`,
      the folder with a trailing separator is the common prefix of the two.
      This is exactly "the folder plus separator is a prefix of the file". */
  function IsInPath(realpath: string -> string, file: string, folder: string): (r: bool)
    ensures r <==> WithTrailingSep(realpath(folder)) <= realpath(file)
  {
    var dir := WithTrailingSep(realpath(folder));
    CommonPrefix(realpath(file), dir) == dir
  }

  /** A folder is not inside itself (unless it resolves to the root `/`,
      whose separator-terminated form is itself). */
  lemma FolderNotInItself(realpath: string -> string, folder: string)
    requires |realpath(folder)| > 0 && realpath(folder)[|realpath(folder)| - 1] != '/'
    ensures !IsInPath(realpath, folder, folder)
  {
  }

  /** A sibling sharing a name prefix (`/a/bc` next to `/a/b`) is not inside. */
  lemma SiblingNotInPath(realpath: string -> string, file: string, folder: string, extra: string)
    requires |realpath(folder)| > 0 && realpath(folder)[|realpath(folder)| - 1] != '/'
    requires realpath(file) == realpath(folder) + extra
    requires |extra| > 0 && extra[0] != '/'
    ensures !IsInPath(realpath, file, folder)
  {
    var dir := realpath(folder) + "/";
    assert dir[|realpath(folder)|] == '/';
    assert realpath(file)[|realpath(folder)|] == extra[0];
  }

  /** Anything below the separator-terminated folder is inside it. */
  lemma DescendantInPath(realpath: string -> string, file: string, folder: string, rest: string)
    requires realpath(file) == WithTrailingSep(realpath(folder)) + rest
    ensures IsInPath(realpath, file, folder)
  {
  }
}

=== FILE: results.dfy ===
/** Failure-compatible wrappers shared by every module of the model. */
module Results {

  /** An optional value: Python's `None` or a present value. */
  datatype Option<+T> = None | Some(value: T) {

    /** The value if present, `default` otherwise. */
    function GetOr(default: T): T {
      match this
      case Some(v) => v
      case None => default
    }
  }

  /** The outcome of an operation that either produces a value or raises. */
  datatype Result<+T, +E> = Success(value: T) | Failure(error: E) {

    predicate IsFailure() {
      Failure?
    }

    function PropagateFailure<U>(): Result<U, E>
      requires Failure?
    {
      Failure(error)
    }

    function Extract(): T
      requires Success?
    {
      value
    }
  }
}

=== FILE: subproc.dfy ===
/** The subprocess registry of dockerly/subproc.py (`SubprocManager`) as a
    sequential state machine. Real processes are replaced by an observation
    oracle: at every poll a process is `Running` or `Exited(code)`. Signals
    are recorded as a log of `Sent` events (one per `os.killpg`) instead of
    being delivered. Sleeping, printing, opening files and installing signal
    handlers are left out. */
module Subproc {
  import opened Results
  import opened Text
  import opened Paths

  // ----- Configuration -----

  /** `stdout_mode` after validation. */
  datatype OutMode = OutPrint | OutFile | OutNone

  /** `stderr_mode` after validation. */
  datatype ErrMode = ErrPrint | ErrFile | ErrNone | ErrStdout

  function OutModeName(m: OutMode): string {
    match m
    case OutPrint => "print"
    case OutFile => "file"
    case OutNone => "none"
  }

  function ErrModeName(m: ErrMode): string {
    match m
    case ErrPrint => "print"
    case ErrFile => "file"
    case ErrNone => "none"
    case ErrStdout => "stdout"
  }

  /** The membership test `stdout_mode in ['print', 'file', 'none']`: a
      string is accepted exactly when it is the name of a mode. */
  function ParseOutMode(s: string): (r: Option<OutMode>)
    ensures r.Some? ==> OutModeName(r.value) == s
    ensures r.None? ==> forall m: OutMode :: OutModeName(m) != s
  {
    if s == "print" then Some(OutPrint)
    else if s == "file" then Some(OutFile)
    else if s == "none" then Some(OutNone)
    else None
  }

  /** The membership test `stderr_mode in ['print', 'file', 'none', 'stdout']`. */
  function ParseErrMode(s: string): (r: Option<ErrMode>)
    ensures r.Some? ==> ErrModeName(r.value) == s
    ensures r.None? ==> forall m: ErrMode :: ErrModeName(m) != s
  {
    if s == "print" then Some(ErrPrint)
    else if s == "file" then Some(ErrFile)
    else if s == "none" then Some(ErrNone)
    else if s == "stdout" then Some(ErrStdout)
    else None
  }

  /** Every mode is accepted under its own name. */
  lemma ModeNamesRoundTrip(o: OutMode, e: ErrMode)
    ensures ParseOutMode(OutModeName(o)) == Some(o)
    ensures ParseErrMode(ErrModeName(e)) == Some(e)
  {
  }

  /** Where a child's stream goes. */
  datatype Sink =
    | Inherit            // `None`: the parent's stream
    | Discard            // `subprocess.DEVNULL`
    | ToFile(path: string)
    | IntoStdout         // `subprocess.STDOUT`: stderr merged into stdout

  /** A caller-supplied environment value: a string, or any other value
      together with what `str()` renders it as. */
  datatype EnvValue = EnvText(text: string) | EnvOther(rendered: string)

  /** A registered process: the handle `launch` returns. */
  datatype Entry = Entry(
    name: string,
    cmd: string,
    stdout: Sink,
    stderr: Sink,
    env: map<string, string>)

  /** The manager: validated modes, log directory, dry-run flag and the
      registry `processes`, in insertion order. */
  datatype Manager = Manager(
    stdoutMode: OutMode,
    stderrMode: ErrMode,
    logDir: Option<string>,
    dryRun: bool,
    registry: seq<Entry>)

  /** The errors the manager raises. */
  datatype Fault =
    | BadStdoutMode(mode: string)    // assertion on the lowercased stdout mode
    | BadStderrMode(mode: string)    // assertion on the lowercased stderr mode
    | MissingLogDir                  // `assert log_dir is not None`
    | DuplicateName(name: string)    // `launch` of a registered name
    | UnknownName(name: string)      // `poll` of an unregistered name
    | NoLogDir                       // `os.path.join(None, ...)` in `launch`
    | UnnamedSignal(sig: Signal)     // `SIG_DICT[signal]` raises KeyError

  function Names(reg: seq<Entry>): (ns: seq<string>)
    ensures |ns| == |reg|
    ensures forall i :: 0 <= i < |reg| ==> ns[i] == reg[i].name
  {
    seq(|reg|, i requires 0 <= i < |reg| => reg[i].name)
  }

  /** No element occurs twice. */
  predicate Distinct(s: seq<string>) {
    forall i, j :: 0 <= i < j < |s| ==> s[i] != s[j]
  }

  /** The registry invariant: names are unique. */
  predicate UniqueNames(reg: seq<Entry>) {
    Distinct(Names(reg))
  }

  /** Every file-backed stream has a log directory to write into. */
  predicate FileModesHaveLogDir(m: Manager) {
    (m.stdoutMode == OutFile || m.stderrMode == ErrFile) ==> m.logDir.Some?
  }

  /** `SubprocManager.__init__`, as written: the lowercased modes must be
      valid, but the log-directory requirement tests the modes as given,
      before lowercasing. */
  function Create(stdoutMode: string, stderrMode: string, logDir: Option<string>,
                  expandUser: string -> string): (r: Result<Manager, Fault>)
    ensures r.Success? <==>
              && ParseOutMode(Lower(stdoutMode)).Some?
              && ParseErrMode(Lower(stderrMode)).Some?
              && (stdoutMode == "file" || stderrMode == "file" ==> logDir.Some?)
    ensures ParseOutMode(Lower(stdoutMode)).None? ==> r == Failure(BadStdoutMode(Lower(stdoutMode)))
    ensures r.Success? ==>
              && r.value.registry == []
              && !r.value.dryRun
              && OutModeName(r.value.stdoutMode) == Lower(stdoutMode)
              && ErrModeName(r.value.stderrMode) == Lower(stderrMode)
              && (r.value.logDir.Some? <==> stdoutMode == "file" || stderrMode == "file")
              && (r.value.logDir.Some? ==> r.value.logDir.value == expandUser(logDir.value))
  {
    var out := ParseOutMode(Lower(stdoutMode));
    var err := ParseErrMode(Lower(stderrMode));
    if out.None? then Failure(BadStdoutMode(Lower(stdoutMode)))
    else if err.None? then Failure(BadStderrMode(Lower(stderrMode)))
    else if stdoutMode == "file" || stderrMode == "file" then
      if logDir.None? then Failure(MissingLogDir)
      else Success(Manager(out.value, err.value, Some(expandUser(logDir.value)), false, []))
    else Success(Manager(out.value, err.value, None, false, []))
  }

  /** The constructor as evidently intended: the log-directory requirement
      tests the lowercased modes, so every manager it builds can open the
      log files its modes ask for. */
  function CreateChecked(stdoutMode: string, stderrMode: string, logDir: Option<string>,
                         expandUser: string -> string): (r: Result<Manager, Fault>)
    ensures r.Success? <==>
              && ParseOutMode(Lower(stdoutMode)).Some?
              && ParseErrMode(Lower(stderrMode)).Some?
              && (Lower(stdoutMode) == "file" || Lower(stderrMode) == "file" ==> logDir.Some?)
    ensures r.Success? ==>
              && r.value.registry == []
              && !r.value.dryRun
              && FileModesHaveLogDir(r.value)
              && OutModeName(r.value.stdoutMode) == Lower(stdoutMode)
              && ErrModeName(r.value.stderrMode) == Lower(stderrMode)
  {
    var out := ParseOutMode(Lower(stdoutMode));
    var err := ParseErrMode(Lower(stderrMode));
    if out.None? then Failure(BadStdoutMode(Lower(stdoutMode)))
    else if err.None? then Failure(BadStderrMode(Lower(stderrMode)))
    else if out.value == OutFile || err.value == ErrFile then
      if logDir.None? then Failure(MissingLogDir)
      else Success(Manager(out.value, err.value, Some(expandUser(logDir.value)), false, []))
    else Success(Manager(out.value, err.value, None, false, []))
  }

  /** As written, an upper-case `FILE` mode passes validation without a log
      directory; the first launch then fails on the missing directory. */
  lemma UppercaseFileSkipsLogDir(expandUser: string -> string, name: string, cmd: string,
                                 parentEnv: map<string, string>)
    ensures Create("FILE", "print", None, expandUser).Success?
    ensures Create("FILE", "print", None, expandUser).value.stdoutMode == OutFile
    ensures Create("FILE", "print", None, expandUser).value.logDir.None?
    ensures Launch(Create("FILE", "print", None, expandUser).value, name, cmd, None, parentEnv)
            == Failure(NoLogDir)
  {
    var up := "FILE";
    var pr := "print";
    assert Lower(up) == "file";
    assert Lower(pr) == "print";
  }

  /** With the corrected constructor, launching into a fresh manager never
      fails for want of a log directory, whatever the case of the modes. */
  lemma CheckedLaunchSucceeds(stdoutMode: string, stderrMode: string, logDir: Option<string>,
                              expandUser: string -> string, name: string, cmd: string,
                              env: Option<map<string, EnvValue>>, parentEnv: map<string, string>)
    requires CreateChecked(stdoutMode, stderrMode, logDir, expandUser).Success?
    ensures Launch(CreateChecked(stdoutMode, stderrMode, logDir, expandUser).value, name, cmd, env, parentEnv).Success?
    ensures Launch(CreateChecked(stdoutMode, stderrMode, logDir, expandUser).value, name, cmd, env, parentEnv)
              .value.manager.registry
            == [Launch(CreateChecked(stdoutMode, stderrMode, logDir, expandUser).value, name, cmd, env, parentEnv)
                  .value.handle.value]
  {
    FirstLaunch(CreateChecked(stdoutMode, stderrMode, logDir, expandUser).value, name, cmd, env, parentEnv);
  }

  /** The first launch into an empty, live manager whose file modes have a
      log directory succeeds and registers just that process. */
  lemma FirstLaunch(m: Manager, name: string, cmd: string, env: Option<map<string, EnvValue>>,
                    parentEnv: map<string, string>)
    requires m.registry == [] && !m.dryRun && FileModesHaveLogDir(m)
    ensures Launch(m, name, cmd, env, parentEnv).Success?
    ensures Launch(m, name, cmd, env, parentEnv).value.manager.registry == [Launch(m, name, cmd, env, parentEnv).value.handle.value]
  {
    assert Names(m.registry) == [];
  }

  // ----- launch -----

  /** The stdout sink `launch` chooses: `<log_dir>/<name>.out` in file mode
      (an absolute name replaces the log directory, as `os.path.join` does),
      the parent's stream in print mode, the null device otherwise. */
  function StdoutSink(mode: OutMode, logDir: Option<string>, name: string): (r: Result<Sink, Fault>)
    ensures r.Failure? <==> mode == OutFile && logDir.None?
    ensures r.Success? ==> (r.value.ToFile? <==> mode == OutFile)
    ensures r.Success? && r.value.ToFile? ==> EndsWith(r.value.path, name + ".out")
    ensures r.Success? && r.value.ToFile? && !IsAbs(name) ==> StartsWith(r.value.path, logDir.value)
    ensures r.Success? && r.value.ToFile? && IsAbs(name) ==> r.value.path == name + ".out"
    ensures r.Success? ==> (r.value == Inherit <==> mode == OutPrint)
    ensures r.Success? ==> (r.value == Discard <==> mode == OutNone)
  {
    match mode
    case OutFile =>
      if logDir.None? then Failure(NoLogDir)
      else Success(ToFile(PathJoin(logDir.value, name + ".out")))
    case OutPrint => Success(Inherit)
    case OutNone => Success(Discard)
  }

  /** The stderr sink: `<log_dir>/<name>.err` in file mode, the parent's
      stream in print mode, merged into stdout in stdout mode, the null device
      otherwise. */
  function StderrSink(mode: ErrMode, logDir: Option<string>, name: string): (r: Result<Sink, Fault>)
    ensures r.Failure? <==> mode == ErrFile && logDir.None?
    ensures r.Success? ==> (r.value.ToFile? <==> mode == ErrFile)
    ensures r.Success? && r.value.ToFile? ==> EndsWith(r.value.path, name + ".err")
    ensures r.Success? && r.value.ToFile? && !IsAbs(name) ==> StartsWith(r.value.path, logDir.value)
    ensures r.Success? && r.value.ToFile? && IsAbs(name) ==> r.value.path == name + ".err"
    ensures r.Success? ==> (r.value == Inherit <==> mode == ErrPrint)
    ensures r.Success? ==> (r.value == IntoStdout <==> mode == ErrStdout)
    ensures r.Success? ==> (r.value == Discard <==> mode == ErrNone)
  {
    match mode
    case ErrFile =>
      if logDir.None? then Failure(NoLogDir)
      else Success(ToFile(PathJoin(logDir.value, name + ".err")))
    case ErrPrint => Success(Inherit)
    case ErrStdout => Success(IntoStdout)
    case ErrNone => Success(Discard)
  }

  /** Two processes with different relative names get different log path
      strings: their `.out` paths differ, their `.err` paths differ, and no
      `.out` path is an `.err` path. (Different strings may still name one
      file, as `a` and `./a` do.) */
  lemma LogPathsDistinct(dir: string, a: string, b: string)
    requires !IsAbs(a) && !IsAbs(b)
    ensures a != b ==> PathJoin(dir, a + ".out") != PathJoin(dir, b + ".out")
    ensures a != b ==> PathJoin(dir, a + ".err") != PathJoin(dir, b + ".err")
    ensures PathJoin(dir, a + ".out") != PathJoin(dir, b + ".err")
  {
    SameDirJoin(dir, a + ".out", b + ".out");
    SameDirJoin(dir, a + ".err", b + ".err");
    SuffixCancel(a, b, ".out");
    SuffixCancel(a, b, ".err");
    var o := PathJoin(dir, a + ".out");
    var e := PathJoin(dir, b + ".err");
    assert o[|o| - 2] == 'u' && e[|e| - 2] == 'r';
  }

  /** Appending the same suffix keeps different names different. */
  lemma SuffixCancel(a: string, b: string, t: string)
    ensures a + t == b + t ==> a == b
  {
    if a + t == b + t {
      assert |a| == |b|;
      assert (a + t)[..|a|] == a && (b + t)[..|b|] == b;
    }
  }

  /** Joining two relative components onto the same directory gives equal
      paths only for equal components. */
  lemma SameDirJoin(dir: string, x: string, y: string)
    requires |x| > 0 && |y| > 0 && x[0] != '/' && y[0] != '/'
    ensures PathJoin(dir, x) == PathJoin(dir, y) ==> x == y
  {
    if PathJoin(dir, x) == PathJoin(dir, y) {
      var p := PathJoin(dir, x);
      var k := |p| - |x|;
      assert PathJoin(dir, x)[k..] == x;
      assert PathJoin(dir, y)[|p| - |y|..] == y;
    }
  }

  /** `str()` applied to the caller's non-string values. */
  function Stringify(v: EnvValue): string {
    match v
    case EnvText(s) => s
    case EnvOther(rendered) => rendered
  }

  /** The child environment: the caller's map with values stringified, then
      `env.update(os.environ)`, so the inherited value wins for every key the
      parent defines and caller-only keys are kept. */
  function ChildEnv(caller: map<string, EnvValue>, parent: map<string, string>): (r: map<string, string>)
    ensures r.Keys == caller.Keys + parent.Keys
    ensures forall k :: k in parent ==> r[k] == parent[k]
    ensures forall k :: k in caller && k !in parent ==> r[k] == Stringify(caller[k])
  {
    (map k | k in caller :: Stringify(caller[k])) + parent
  }

  /** What `launch` returns: the updated manager and the handle, which is
      absent in dry-run mode. */
  datatype Launched = Launched(manager: Manager, handle: Option<Entry>)

  /** `launch(name, cmd, env)`. In dry-run mode nothing changes and no handle
      is returned, even for a registered name. Otherwise a registered name
      fails, the sinks are chosen, the environment merged, and exactly one
      entry is appended. */
  function Launch(m: Manager, name: string, cmd: string, env: Option<map<string, EnvValue>>,
                  parentEnv: map<string, string>): (r: Result<Launched, Fault>)
    ensures m.dryRun ==> r == Success(Launched(m, None))
    ensures !m.dryRun && name in Names(m.registry) ==> r == Failure(DuplicateName(name))
    ensures !m.dryRun && name !in Names(m.registry) && FileModesHaveLogDir(m) ==> r.Success?
    ensures !m.dryRun && name !in Names(m.registry) && !FileModesHaveLogDir(m) ==> r == Failure(NoLogDir)
    ensures r.Success? && !m.dryRun ==>
              && StdoutSink(m.stdoutMode, m.logDir, name).Success?
              && StderrSink(m.stderrMode, m.logDir, name).Success?
              && r.value.handle.Some?
              && r.value.handle.value.stdout == StdoutSink(m.stdoutMode, m.logDir, name).value
              && r.value.handle.value.stderr == StderrSink(m.stderrMode, m.logDir, name).value
    ensures r.Success? && !m.dryRun ==>
              && r.value.handle.Some?
              && r.value.handle.value.name == name
              && r.value.handle.value.cmd == cmd
              && r.value.manager == m.(registry := m.registry + [r.value.handle.value])
              && r.value.handle.value.env == ChildEnv(env.GetOr(map[]), parentEnv)
  {
    if m.dryRun then Success(Launched(m, None))
    else if name in Names(m.registry) then Failure(DuplicateName(name))
    else
      var out :- StdoutSink(m.stdoutMode, m.logDir, name);
      var err :- StderrSink(m.stderrMode, m.logDir, name);
      var e := Entry(name, cmd, out, err, ChildEnv(env.GetOr(map[]), parentEnv));
      Success(Launched(m.(registry := m.registry + [e]), Some(e)))
  }

  /** A successful launch keeps names unique and adds exactly the new name,
      leaving every earlier entry where it was. */
  lemma LaunchAddsOneName(m: Manager, name: string, cmd: string, env: Option<map<string, EnvValue>>,
                          parentEnv: map<string, string>)
    requires UniqueNames(m.registry)
    requires Launch(m, name, cmd, env, parentEnv).Success?
    ensures var m' := Launch(m, name, cmd, env, parentEnv).value.manager;
            && UniqueNames(m'.registry)
            && (m.dryRun ==> m'.registry == m.registry)
            && (!m.dryRun ==> Names(m'.registry) == Names(m.registry) + [name])
            && m'.registry[..|m.registry|] == m.registry
  {
    var m' := Launch(m, name, cmd, env, parentEnv).value.manager;
    if !m.dryRun {
      assert Names(m'.registry) == Names(m.registry) + [name];
    }
  }

  // ----- poll, kill -----

  /** A process as one observation sees it: `proc.poll()` is `None` while it
      runs and the exit code afterwards. */
  datatype Status = Running | Exited(code: int)

  /** One observation of every process, by name. */
  type Observe = string -> Status

  /** `poll(name)`. */
  function Poll(m: Manager, name: string, obs: Observe): (r: Result<Status, Fault>)
    ensures r.Success? <==> name in Names(m.registry)
    ensures r.Success? ==> r.value == obs(name)
    ensures r.Failure? ==> r.error == UnknownName(name)
  {
    if name in Names(m.registry) then Success(obs(name)) else Failure(UnknownName(name))
  }

  /** `poll_all()`: one entry per registered name, each what `poll` says. */
  function PollAll(m: Manager, obs: Observe): (r: map<string, Status>)
    ensures forall n :: n in r <==> n in Names(m.registry)
    ensures forall n :: n in r ==> Poll(m, n, obs) == Success(r[n])
  {
    map n | n in Names(m.registry) :: obs(n)
  }

  /** The signals the model distinguishes. */
  datatype Signal = SIGHUP | SIGINT | SIGQUIT | SIGILL | SIGABRT | SIGFPE | SIGKILL | SIGSEGV | SIGTERM

  /** `SIG_DICT` as written: the signals the handler is installed for. */
  const SigDict: map<Signal, string> := map[
    SIGINT := "SIGINT", SIGTERM := "SIGTERM", SIGABRT := "SIGABRT", SIGILL := "SIGILL",
    SIGFPE := "SIGFPE", SIGSEGV := "SIGSEGV", SIGQUIT := "SIGQUIT", SIGHUP := "SIGHUP"]

  /** The name table as evidently intended: it also names SIGKILL. */
  const FixedSigDict: map<Signal, string> := SigDict[SIGKILL := "SIGKILL"]

  /** One `os.killpg` call: `sig` to the process group of `name`. */
  datatype Sent = Sent(name: string, sig: Signal)

  /** The signals an operation sent, and the error it raised, if any (a
      verbose kill raises after its signal has gone out). */
  datatype Effect = Effect(sent: seq<Sent>, fault: Option<Fault>)

  /** `kill(name, signal, verbose)` with signal names looked up in `table`:
      one signal to the process group when `poll` reports the process
      running, nothing otherwise. */
  function Kill(m: Manager, name: string, sig: Signal, verbose: bool, table: map<Signal, string>,
                obs: Observe): (r: Effect)
    ensures name !in Names(m.registry) ==> r == Effect([], Some(UnknownName(name)))
    ensures name in Names(m.registry) ==> (|r.sent| > 0 <==> Poll(m, name, obs) == Success(Running))
    ensures name in Names(m.registry) && obs(name) == Running ==> r.sent == [Sent(name, sig)]
    ensures name in Names(m.registry) && obs(name) != Running ==> r == Effect([], None)
    ensures name in Names(m.registry) ==>
              (r.fault.Some? <==> obs(name) == Running && verbose && sig !in table)
  {
    match Poll(m, name, obs)
    case Failure(e) => Effect([], Some(e))
    case Success(st) =>
      if st == Running then
        Effect([Sent(name, sig)], if verbose && sig !in table then Some(UnnamedSignal(sig)) else None)
      else Effect([], None)
  }

  /** The names among `names` that `obs` sees running, in order. */
  function Targets(names: seq<string>, obs: Observe): (r: seq<string>)
    ensures forall x :: x in r <==> x in names && obs(x) == Running
  {
    if |names| == 0 then []
    else if obs(names[0]) == Running then [names[0]] + Targets(names[1..], obs)
    else Targets(names[1..], obs)
  }

  /** `sig` to each of `names`, in order. */
  function Tag(names: seq<string>, sig: Signal): (r: seq<Sent>)
    ensures |r| == |names|
    ensures forall i :: 0 <= i < |r| ==> r[i] == Sent(names[i], sig)
  {
    seq(|names|, i requires 0 <= i < |names| => Sent(names[i], sig))
  }

  /** `for name in names: kill(name, sig, verbose)`, stopping at the first
      error. Over registered names it sends `sig` to exactly the running
      ones; if the signal has no name and `verbose` is set, it raises right
      after the first of them. */
  function KillEach(m: Manager, names: seq<string>, sig: Signal, verbose: bool,
                    table: map<Signal, string>, obs: Observe): (r: Effect)
    requires forall i :: 0 <= i < |names| ==> names[i] in Names(m.registry)
    ensures SentToRunning(r.sent, names, sig, obs)
    ensures !verbose || sig in table ==> r == Effect(Tag(Targets(names, obs), sig), None)
    ensures verbose && sig !in table ==>
              r == if |Targets(names, obs)| == 0 then Effect([], None)
                   else Effect([Sent(Targets(names, obs)[0], sig)], Some(UnnamedSignal(sig)))
  {
    if |names| == 0 then Effect([], None)
    else
      var e := Kill(m, names[0], sig, verbose, table, obs);
      var rest := KillEach(m, names[1..], sig, verbose, table, obs);
      var r := if e.fault.Some? then e else Effect(e.sent + rest.sent, rest.fault);
      KillEachStep(m, names, sig, verbose, table, obs, e, rest, r);
      r
  }

  /** What `KillEach` promises about its effect `r` on `names`. */
  predicate KillEachSpec(r: Effect, names: seq<string>, sig: Signal, verbose: bool,
                         table: map<Signal, string>, obs: Observe) {
    && SentToRunning(r.sent, names, sig, obs)
    && (!verbose || sig in table ==> r == Effect(Tag(Targets(names, obs), sig), None))
    && (verbose && sig !in table ==>
          r == if |Targets(names, obs)| == 0 then Effect([], None)
               else Effect([Sent(Targets(names, obs)[0], sig)], Some(UnnamedSignal(sig))))
  }

  /** The step of `KillEach`: the first `kill`, then the rest unless it raised. */
  lemma KillEachStep(m: Manager, names: seq<string>, sig: Signal, verbose: bool,
                     table: map<Signal, string>, obs: Observe, e: Effect, rest: Effect, r: Effect)
    requires |names| > 0 && names[0] in Names(m.registry)
    requires e == Kill(m, names[0], sig, verbose, table, obs)
    requires KillEachSpec(rest, names[1..], sig, verbose, table, obs)
    requires r == if e.fault.Some? then e else Effect(e.sent + rest.sent, rest.fault)
    ensures KillEachSpec(r, names, sig, verbose, table, obs)
  {
    TagCons(names[0], Targets(names[1..], obs), sig);
    if e.fault.None? {
      SentToRunningCons(e.sent, rest.sent, names, sig, obs);
    }
  }

  /** Every signal in `sent` is `sig`, to one of `names` that `obs` sees running. */
  predicate SentToRunning(sent: seq<Sent>, names: seq<string>, sig: Signal, obs: Observe) {
    forall i :: 0 <= i < |sent| ==>
      sent[i].sig == sig && sent[i].name in names && obs(sent[i].name) == Running
  }

  lemma SentToRunningCons(first: seq<Sent>, rest: seq<Sent>, names: seq<string>, sig: Signal, obs: Observe)
    requires |names| > 0
    requires first == [] || (first == [Sent(names[0], sig)] && obs(names[0]) == Running)
    requires SentToRunning(rest, names[1..], sig, obs)
    ensures SentToRunning(first + rest, names, sig, obs)
  {
    forall i | 0 <= i < |first + rest|
      ensures (first + rest)[i].sig == sig && (first + rest)[i].name in names
    {
      if i >= |first| {
        assert (first + rest)[i] == rest[i - |first|];
        assert rest[i - |first|].name in names[1..];
      }
    }
  }

  lemma TagCons(n: string, t: seq<string>, sig: Signal)
    ensures Tag([n] + t, sig) == [Sent(n, sig)] + Tag(t, sig)
  {
    var l := Tag([n] + t, sig);
    var r := [Sent(n, sig)] + Tag(t, sig);
    forall i | 0 <= i < |l| ensures l[i] == r[i] {
      if i > 0 {
        assert ([n] + t)[i] == t[i - 1];
      }
    }
  }

  /** `kill_all(verbose)`: SIGTERM to every process running at the first
      observation, then, after the grace period, SIGKILL to every process
      still running at the second. The registry is not touched. */
  function KillAll(m: Manager, verbose: bool, table: map<Signal, string>,
                   before: Observe, after: Observe): (r: Effect)
    ensures forall i :: 0 <= i < |r.sent| ==>
              && r.sent[i].name in Names(m.registry)
              && (r.sent[i].sig == SIGTERM ==> before(r.sent[i].name) == Running)
              && (r.sent[i].sig == SIGKILL ==> after(r.sent[i].name) == Running)
    ensures !verbose || SIGTERM in table ==>
              && |Targets(Names(m.registry), before)| <= |r.sent|
              && r.sent[..|Targets(Names(m.registry), before)|] == Tag(Targets(Names(m.registry), before), SIGTERM)
    ensures !verbose || (SIGTERM in table && SIGKILL in table) ==>
              r == Effect(Tag(Targets(Names(m.registry), before), SIGTERM)
                          + Tag(Targets(Names(m.registry), after), SIGKILL), None)
  {
    var term := KillEach(m, Names(m.registry), SIGTERM, verbose, table, before);
    if term.fault.Some? then term
    else
      var kill := KillEach(m, Names(m.registry), SIGKILL, verbose, table, after);
      Effect(term.sent + kill.sent, kill.fault)
  }

  /** `_signal_handler(sig)`, installed for every signal the table names:
      a verbose `kill_all`. Assuming SIGTERM is named, it completes exactly
      when SIGKILL is named too or nothing survives the grace period. */
  function HandleSignal(m: Manager, sig: Signal, table: map<Signal, string>,
                        before: Observe, after: Observe): (r: Effect)
    requires sig in table
    ensures SIGTERM in table ==>
              (r.fault.None? <==> SIGKILL in table || |Targets(Names(m.registry), after)| == 0)
    ensures SIGTERM in table ==>
              && |Targets(Names(m.registry), before)| <= |r.sent|
              && r.sent[..|Targets(Names(m.registry), before)|] == Tag(Targets(Names(m.registry), before), SIGTERM)
  {
    KillAll(m, true, table, before, after)
  }

  /** SIGTERM has a name in the table as written; SIGKILL does not. */
  lemma SigDictNames()
    ensures SIGTERM in SigDict && SIGKILL !in SigDict
    ensures SIGTERM in FixedSigDict && SIGKILL in FixedSigDict
  {
  }

  /** As written, a verbose `kill_all` raises exactly when some process is
      still running at the second observation, right after sending SIGKILL
      to the first such process; no other survivor is killed. */
  lemma KillAllVerboseFaults(m: Manager, before: Observe, after: Observe)
    ensures var r := KillAll(m, true, SigDict, before, after);
            var survivors := Targets(Names(m.registry), after);
            && (r.fault.Some? <==> |survivors| > 0)
            && (|survivors| > 0 ==>
                  r.sent == Tag(Targets(Names(m.registry), before), SIGTERM) + [Sent(survivors[0], SIGKILL)])
  {
    SigDictNames();
  }

  /** With SIGKILL named, `kill_all` never raises, whether verbose or not. */
  lemma KillAllFixedNeverFaults(m: Manager, verbose: bool, before: Observe, after: Observe)
    ensures KillAll(m, verbose, FixedSigDict, before, after).fault.None?
  {
    SigDictNames();
  }

  /** SIGKILL reaches exactly the processes still running at the second
      observation: one that exits within the grace period never gets it. */
  lemma SigkillOnlyToSurvivors(m: Manager, verbose: bool, table: map<Signal, string>,
                               before: Observe, after: Observe, name: string)
    requires !verbose || (SIGTERM in table && SIGKILL in table)
    ensures Sent(name, SIGKILL) in KillAll(m, verbose, table, before, after).sent <==>
            name in Names(m.registry) && after(name) == Running
    ensures Sent(name, SIGTERM) in KillAll(m, verbose, table, before, after).sent <==>
            name in Names(m.registry) && before(name) == Running
  {
    var term := Tag(Targets(Names(m.registry), before), SIGTERM);
    var kill := Tag(Targets(Names(m.registry), after), SIGKILL);
    SentIn(term, kill, name, SIGKILL);
    SentIn(term, kill, name, SIGTERM);
  }

  /** Whatever the table and verbosity, a signal reaches only a registered
      process that was running when it was sent: SIGTERM one running at the
      first observation, SIGKILL one still running at the second. With
      SIGTERM named (or verbose off), SIGTERM reaches exactly the processes
      running at the first observation, so the program's own verbose calls
      with its table always complete the SIGTERM phase. */
  lemma SignalsOnlyToRunning(m: Manager, verbose: bool, table: map<Signal, string>,
                             before: Observe, after: Observe, name: string)
    ensures Sent(name, SIGTERM) in KillAll(m, verbose, table, before, after).sent ==>
              name in Names(m.registry) && before(name) == Running
    ensures Sent(name, SIGKILL) in KillAll(m, verbose, table, before, after).sent ==>
              name in Names(m.registry) && after(name) == Running
    ensures !verbose || SIGTERM in table ==>
              (Sent(name, SIGTERM) in KillAll(m, verbose, table, before, after).sent <==>
               name in Names(m.registry) && before(name) == Running)
  {
    var r := KillAll(m, verbose, table, before, after);
    SentOnlyToRunning(r.sent, Names(m.registry), before, after, name);
    if !verbose || SIGTERM in table {
      var targets := Targets(Names(m.registry), before);
      if name in Names(m.registry) && before(name) == Running {
        TaggedPrefix(r.sent, targets, name, SIGTERM);
      }
    }
  }

  /** A log whose every signal went to a registered process running at the
      matching observation has no other signal to `name`. */
  lemma SentOnlyToRunning(sent: seq<Sent>, names: seq<string>, before: Observe, after: Observe, name: string)
    requires forall i :: 0 <= i < |sent| ==>
               && sent[i].name in names
               && (sent[i].sig == SIGTERM ==> before(sent[i].name) == Running)
               && (sent[i].sig == SIGKILL ==> after(sent[i].name) == Running)
    ensures Sent(name, SIGTERM) in sent ==> name in names && before(name) == Running
    ensures Sent(name, SIGKILL) in sent ==> name in names && after(name) == Running
  {
    if Sent(name, SIGTERM) in sent {
      var i :| 0 <= i < |sent| && sent[i] == Sent(name, SIGTERM);
    }
    if Sent(name, SIGKILL) in sent {
      var i :| 0 <= i < |sent| && sent[i] == Sent(name, SIGKILL);
    }
  }

  /** A log that opens with `sig` to each of `targets` holds `sig` to every
      one of them. */
  lemma TaggedPrefix(sent: seq<Sent>, targets: seq<string>, name: string, sig: Signal)
    requires |targets| <= |sent| && sent[..|targets|] == Tag(targets, sig)
    requires name in targets
    ensures Sent(name, sig) in sent
  {
    var i :| 0 <= i < |targets| && targets[i] == name;
    assert sent[..|targets|][i] == Sent(name, sig);
    assert sent[i] == Sent(name, sig);
  }

  /** Where a signal to `name` sits in a SIGTERM phase followed by a SIGKILL
      phase. */
  lemma SentIn(term: seq<Sent>, kill: seq<Sent>, name: string, sig: Signal)
    requires forall i :: 0 <= i < |term| ==> term[i].sig == SIGTERM
    requires forall i :: 0 <= i < |kill| ==> kill[i].sig == SIGKILL
    ensures sig == SIGKILL ==> (Sent(name, sig) in term + kill <==> Sent(name, sig) in kill)
    ensures sig == SIGTERM ==> (Sent(name, sig) in term + kill <==> Sent(name, sig) in term)
  {
    if Sent(name, sig) in term + kill {
      var i :| 0 <= i < |term + kill| && (term + kill)[i] == Sent(name, sig);
      if i < |term| {
        assert term[i] == Sent(name, sig);
      } else {
        assert kill[i - |term|] == Sent(name, sig);
      }
    }
  }

  // ----- join -----

  /** A status line `join` prints: `DONE`, or `TERMINATED WITH ERROR CODE`. */
  datatype Report = Done(name: string) | Failed(name: string, code: int)

  function Reported(rs: seq<Report>): (ns: seq<string>)
    ensures |ns| == |rs|
    ensures forall i :: 0 <= i < |rs| ==> ns[i] == rs[i].name
  {
    seq(|rs|, i requires 0 <= i < |rs| => rs[i].name)
  }

  /** The observations one polling round makes: the poll of each pending
      process, and the two observations of a `kill_all` it may trigger. */
  datatype RoundObs = RoundObs(poll: Observe, before: Observe, after: Observe)

  /** The outcome of one pass over the pending list: what stays pending, the
      reports printed, and whether kill-on-error ended the pass. */
  datatype Round = Round(pending: seq<string>, reports: seq<Report>, stopped: bool)

  /** The report a process that has exited gets. */
  predicate Reports(r: Report, obs: Observe) {
    match r
    case Done(n) => obs(n) == Exited(0)
    case Failed(n, c) => c != 0 && obs(n) == Exited(c)
  }

  /** One pass of `for name in remaining_procs[:]` under the poll `poll`:
      running names stay, an exited one is removed and reported, and with
      kill-on-error a non-zero exit empties the pending list and ends the
      pass (the `kill_all` it triggers is sent by `Advance`). */
  function JoinRound(pending: seq<string>, killOnError: bool, poll: Observe): (r: Round)
    ensures forall x :: x in Reported(r.reports) ==> x in pending
    ensures !r.stopped ==> r.pending == Targets(pending, poll)
    ensures r.stopped ==> killOnError && r.pending == []
  {
    if |pending| == 0 then Round([], [], false)
    else
      var n := pending[0];
      match poll(n)
      case Running =>
        var rest := JoinRound(pending[1..], killOnError, poll);
        if rest.stopped then rest else Round([n] + rest.pending, rest.reports, false)
      case Exited(code) =>
        if code != 0 && killOnError then
          Round([], [Failed(n, code)], true)
        else
          var report := if code == 0 then Done(n) else Failed(n, code);
          var rest := JoinRound(pending[1..], killOnError, poll);
          assert Reported([report] + rest.reports) == [n] + Reported(rest.reports);
          Round(rest.pending, [report] + rest.reports, rest.stopped)
  }

  /** Each report of a round says what the poll saw: `DONE` for exit code
      0, the code itself for any other exit. */
  lemma {:induction false} JoinRoundReports(pending: seq<string>, killOnError: bool, poll: Observe, r: Round)
    requires r == JoinRound(pending, killOnError, poll)
    ensures forall i :: 0 <= i < |r.reports| ==> Reports(r.reports[i], poll)
    decreases |pending|
  {
    if |pending| > 0 {
      var n := pending[0];
      var rest := JoinRound(pending[1..], killOnError, poll);
      JoinRoundReports(pending[1..], killOnError, poll, rest);
      match poll(n)
      case Running =>
        forall i | 0 <= i < |r.reports| ensures Reports(r.reports[i], poll) {
          assert r.reports[i] == rest.reports[i];
        }
      case Exited(code) =>
        if !(code != 0 && killOnError) {
          var report := if code == 0 then Done(n) else Failed(n, code);
          assert Reports(report, poll);
          forall i | 0 <= i < |r.reports| ensures Reports(r.reports[i], poll) {
            if i > 0 {
              assert r.reports[i] == rest.reports[i - 1];
            } else {
              assert r.reports[i] == report;
            }
          }
        }
    }
  }

  /** A round that stops ends on the failure that stopped it, and with
      kill-on-error a failure report always stops the round. */
  lemma {:induction false} JoinRoundStops(pending: seq<string>, killOnError: bool, poll: Observe, r: Round)
    requires r == JoinRound(pending, killOnError, poll)
    ensures && (r.stopped ==> |r.reports| > 0 && r.reports[|r.reports| - 1].Failed?)
            && (killOnError && HasFailure(r.reports) ==> r.stopped)
    decreases |pending|
  {
    if |pending| > 0 {
      var n := pending[0];
      var rest := JoinRound(pending[1..], killOnError, poll);
      JoinRoundStops(pending[1..], killOnError, poll, rest);
      match poll(n)
      case Running =>
        assert r.reports == rest.reports;
      case Exited(code) =>
        if !(code != 0 && killOnError) {
          if r.stopped {
            assert r.reports[|r.reports| - 1] == rest.reports[|rest.reports| - 1];
          }
          if killOnError && HasFailure(r.reports) {
            var i :| 0 <= i < |r.reports| && r.reports[i].Failed?;
            assert i > 0;
            assert rest.reports[i - 1] == r.reports[i];
          }
        }
    }
  }

  /** The poll saw `name` exit with a non-zero code. */
  predicate Fails(poll: Observe, name: string) {
    poll(name).Exited? && poll(name).code != 0
  }

  /** A pass stops exactly when kill-on-error is set and some pending
      process has failed. */
  lemma {:induction false} JoinRoundStopsIff(pending: seq<string>, killOnError: bool, poll: Observe, r: Round)
    requires r == JoinRound(pending, killOnError, poll)
    ensures r.stopped <==> killOnError && exists x :: x in pending && Fails(poll, x)
    decreases |pending|
  {
    if |pending| > 0 {
      var n := pending[0];
      var rest := JoinRound(pending[1..], killOnError, poll);
      JoinRoundStopsIff(pending[1..], killOnError, poll, rest);
      assert pending == [n] + pending[1..];
      if killOnError && Fails(poll, n) {
        assert r.stopped;
      } else {
        assert r.stopped == rest.stopped;
        if killOnError {
          forall x | x in pending && Fails(poll, x) ensures x in pending[1..] {
          }
        }
      }
    }
  }

  /** A round that does not stop accounts for every pending name: it is
      either still pending or reported. */
  lemma {:induction false} JoinRoundCovers(pending: seq<string>, killOnError: bool, poll: Observe, r: Round)
    requires r == JoinRound(pending, killOnError, poll)
    ensures !r.stopped ==> forall x :: x in pending ==> x in r.pending || x in Reported(r.reports)
    decreases |pending|
  {
    if |pending| > 0 && !r.stopped {
      var n := pending[0];
      var rest := JoinRound(pending[1..], killOnError, poll);
      JoinRoundCovers(pending[1..], killOnError, poll, rest);
      RoundShape(pending, killOnError, poll, r, rest);
      if poll(n).Running? {
        CoverCons(n, pending, rest.pending, rest.reports, [n] + rest.pending, Reported(rest.reports));
      } else {
        CoverCons(n, pending, rest.pending, rest.reports, rest.pending, [n] + Reported(rest.reports));
      }
    }
  }

  /** The step of `JoinRoundCovers`: the head is kept or reported, the tail
      was already covered. */
  lemma CoverCons(n: string, pending: seq<string>, restPending: seq<string>, restReports: seq<Report>,
                  kept: seq<string>, reported: seq<string>)
    requires |pending| > 0 && pending[0] == n
    requires forall x :: x in pending[1..] ==> x in restPending || x in Reported(restReports)
    requires n in kept || n in reported
    requires forall x :: x in restPending ==> x in kept
    requires forall x :: x in Reported(restReports) ==> x in reported
    ensures forall x :: x in pending ==> x in kept || x in reported
  {
    forall x | x in pending ensures x in kept || x in reported {
      if x != n {
        assert pending == [n] + pending[1..];
        assert x in pending[1..];
      }
    }
  }

  /** Some report is a failure. */
  predicate HasFailure(rs: seq<Report>) {
    exists i :: 0 <= i < |rs| && rs[i].Failed?
  }

  /** No element of `a` occurs in `b`. */
  predicate Disjoint(a: seq<string>, b: seq<string>) {
    forall x :: x in a ==> x !in b
  }

  lemma DistinctSplit(n: string, tail: seq<string>)
    requires Distinct([n] + tail)
    ensures n !in tail && Distinct(tail)
  {
    forall k | 0 <= k < |tail| ensures tail[k] != n {
      assert ([n] + tail)[0] == n && ([n] + tail)[k + 1] == tail[k];
    }
    forall i, j | 0 <= i < j < |tail| ensures tail[i] != tail[j] {
      assert ([n] + tail)[i + 1] == tail[i] && ([n] + tail)[j + 1] == tail[j];
    }
  }

  lemma DistinctPrepend(n: string, s: seq<string>)
    requires Distinct(s) && n !in s
    ensures Distinct([n] + s)
  {
    forall i, j | 0 <= i < j < |[n] + s| ensures ([n] + s)[i] != ([n] + s)[j] {
      assert ([n] + s)[j] == s[j - 1];
      if i > 0 {
        assert ([n] + s)[i] == s[i - 1];
      }
    }
  }

  lemma DistinctConcat(a: seq<string>, b: seq<string>)
    requires Distinct(a) && Distinct(b) && Disjoint(a, b)
    ensures Distinct(a + b)
  {
    forall i, j | 0 <= i < j < |a + b| ensures (a + b)[i] != (a + b)[j] {
      if j < |a| {
        assert (a + b)[i] == a[i] && (a + b)[j] == a[j];
      } else if i >= |a| {
        assert (a + b)[i] == b[i - |a|] && (a + b)[j] == b[j - |a|];
      } else {
        assert (a + b)[i] == a[i] && (a + b)[j] == b[j - |a|];
        assert a[i] in a;
      }
    }
  }

  /** A round over a distinct pending list reports each name at most once
      and never both reports a name and keeps it pending. */
  lemma {:induction false} JoinRoundDistinct(pending: seq<string>, killOnError: bool, poll: Observe, r: Round)
    requires Distinct(pending)
    requires r == JoinRound(pending, killOnError, poll)
    ensures && Distinct(Reported(r.reports))
            && Distinct(r.pending)
            && Disjoint(Reported(r.reports), r.pending)
    decreases |pending|
  {
    if |pending| > 0 {
      var n := pending[0];
      assert pending == [n] + pending[1..];
      DistinctSplit(n, pending[1..]);
      var rest := JoinRound(pending[1..], killOnError, poll);
      if !(poll(n).Exited? && poll(n).code != 0 && killOnError) {
        RoundShape(pending, killOnError, poll, r, rest);
        JoinRoundDistinct(pending[1..], killOnError, poll, rest);
        assert n !in rest.pending && n !in Reported(rest.reports);
        if !rest.stopped {
          DistinctStep(n, rest.pending, Reported(rest.reports), r.pending, Reported(r.reports));
        } else if poll(n).Exited? {
          DistinctPrepend(n, Reported(rest.reports));
        }
      }
    }
  }

  /** How a round over a non-empty pending list is built from the round
      over its tail, when the head does not stop it. */
  lemma RoundShape(pending: seq<string>, killOnError: bool, poll: Observe, r: Round, rest: Round)
    requires |pending| > 0
    requires r == JoinRound(pending, killOnError, poll)
    requires rest == JoinRound(pending[1..], killOnError, poll)
    requires !(poll(pending[0]).Exited? && poll(pending[0]).code != 0 && killOnError)
    ensures poll(pending[0]).Running? && rest.stopped ==> r == rest
    ensures poll(pending[0]).Running? && !rest.stopped ==>
              r.pending == [pending[0]] + rest.pending && Reported(r.reports) == Reported(rest.reports)
    ensures poll(pending[0]).Exited? ==>
              && r.pending == rest.pending && r.stopped == rest.stopped
              && Reported(r.reports) == [pending[0]] + Reported(rest.reports)
  {
  }

  lemma DistinctStep(n: string, restKept: seq<string>, restReported: seq<string>,
                     kept: seq<string>, reported: seq<string>)
    requires Distinct(restKept) && Distinct(restReported) && Disjoint(restReported, restKept)
    requires n !in restKept && n !in restReported
    requires || (kept == [n] + restKept && reported == restReported)
             || (kept == restKept && reported == [n] + restReported)
    ensures Distinct(kept) && Distinct(reported) && Disjoint(reported, kept)
  {
    if kept == [n] + restKept && reported == restReported {
      DistinctPrepend(n, restKept);
    } else {
      DistinctPrepend(n, restReported);
    }
  }

  /** The state of a `join` call after some rounds. */
  datatype Joined = Joined(pending: seq<string>, reports: seq<Report>, sent: seq<Sent>, fault: Option<Fault>)

  /** The signals a round sends: the verbose `kill_all` when it stopped on a
      failure, nothing otherwise. */
  function RoundEffect(m: Manager, table: map<Signal, string>, o: RoundObs, r: Round): Effect {
    if r.stopped then KillAll(m, true, table, o.before, o.after) else Effect([], None)
  }

  /** The state after a round and the signals it sent. */
  function Advance(st: Joined, r: Round, e: Effect): Joined {
    Joined(r.pending, st.reports + r.reports, st.sent + e.sent, e.fault)
  }

  /** `join(kill_on_error)` driven by one `RoundObs` per polling round: it
      returns once the pending list is empty, stops when `kill_all` raises,
      and is still blocked when the rounds run out. Reports and signals
      only accumulate; without kill-on-error nothing is signalled and nothing
      raised; and signals are only ever sent by the round that ends the loop. */
  function JoinFrom(m: Manager, st: Joined, killOnError: bool, table: map<Signal, string>,
                    rounds: seq<RoundObs>): (j: Joined)
    ensures st.reports <= j.reports && st.sent <= j.sent
    ensures !killOnError && st.fault.None? ==> j.sent == st.sent && j.fault.None?
    ensures j.sent != st.sent ==> killOnError && j.pending == []
    ensures j.sent != st.sent ==> HasFailure(j.reports)
    decreases |rounds|
  {
    if |st.pending| == 0 || st.fault.Some? || |rounds| == 0 then st
    else
      var r := JoinRound(st.pending, killOnError, rounds[0].poll);
      JoinRoundStops(st.pending, killOnError, rounds[0].poll, r);
      HasFailureSplit(st.reports, r.reports);
      var next := Advance(st, r, RoundEffect(m, table, rounds[0], r));
      var j := JoinFrom(m, next, killOnError, table, rounds[1..]);
      assert r.stopped ==> j == next;
      j
  }

  /** `join`: pending starts as every registered name, in order. Without
      kill-on-error it never signals or raises; any signal it sends comes
      from the `kill_all` that empties the pending list. */
  function JoinAll(m: Manager, killOnError: bool, table: map<Signal, string>, rounds: seq<RoundObs>): (j: Joined)
    ensures !killOnError ==> j.sent == [] && j.fault.None?
    ensures j.sent != [] ==> killOnError && j.pending == [] && HasFailure(j.reports)
  {
    JoinFrom(m, Joined(Names(m.registry), [], [], None), killOnError, table, rounds)
  }

  /** The report matches what the poll of one of the rounds saw. */
  predicate Observed(rep: Report, rounds: seq<RoundObs>) {
    exists k :: 0 <= k < |rounds| && Reports(rep, rounds[k].poll)
  }

  lemma ObservedFirst(rep: Report, rounds: seq<RoundObs>)
    requires |rounds| > 0 && Reports(rep, rounds[0].poll)
    ensures Observed(rep, rounds)
  {
  }

  lemma ObservedLater(rep: Report, rounds: seq<RoundObs>)
    requires |rounds| > 0 && Observed(rep, rounds[1..])
    ensures Observed(rep, rounds)
  {
    var k :| 0 <= k < |rounds[1..]| && Reports(rep, rounds[1..][k].poll);
    assert rounds[1..][k] == rounds[k + 1];
  }

  /** Every report `join` prints matches what the poll of some round saw. */
  lemma {:induction false} JoinFromObserved(m: Manager, st: Joined, killOnError: bool,
                                            table: map<Signal, string>, rounds: seq<RoundObs>, j: Joined)
    requires j == JoinFrom(m, st, killOnError, table, rounds)
    ensures forall i :: |st.reports| <= i < |j.reports| ==> Observed(j.reports[i], rounds)
    decreases |rounds|
  {
    if !(|st.pending| == 0 || st.fault.Some? || |rounds| == 0) {
      var r := JoinRound(st.pending, killOnError, rounds[0].poll);
      var next := Advance(st, r, RoundEffect(m, table, rounds[0], r));
      JoinRoundReports(st.pending, killOnError, rounds[0].poll, r);
      JoinFromObserved(m, next, killOnError, table, rounds[1..], j);
      ObservedStep(st.reports, r.reports, j.reports, rounds);
    }
  }

  /** The step of `JoinFromObserved`: this round's reports match its poll,
      and later ones match later rounds. */
  lemma ObservedStep(prev: seq<Report>, now: seq<Report>, all: seq<Report>, rounds: seq<RoundObs>)
    requires |rounds| > 0
    requires forall i :: 0 <= i < |now| ==> Reports(now[i], rounds[0].poll)
    requires prev + now <= all
    requires forall i :: |prev + now| <= i < |all| ==> Observed(all[i], rounds[1..])
    ensures forall i :: |prev| <= i < |all| ==> Observed(all[i], rounds)
  {
    forall i | |prev| <= i < |all| ensures Observed(all[i], rounds) {
      if i < |prev + now| {
        assert all[i] == (prev + now)[i] == now[i - |prev|];
        ObservedFirst(all[i], rounds);
      } else {
        ObservedLater(all[i], rounds);
      }
    }
  }

  /** Every report of a whole `join` matches what some round's poll saw. */
  lemma JoinReportsObserved(m: Manager, killOnError: bool, table: map<Signal, string>, rounds: seq<RoundObs>)
    ensures var j := JoinAll(m, killOnError, table, rounds);
            forall i :: 0 <= i < |j.reports| ==> Observed(j.reports[i], rounds)
  {
    var j := JoinAll(m, killOnError, table, rounds);
    JoinFromObserved(m, Joined(Names(m.registry), [], [], None), killOnError, table, rounds, j);
  }

  /** What a `join` keeps true from round to round: until kill-on-error
      meets a failure, nothing is signalled or raised and every name is
      accounted for. */
  predicate JoinInv(names: seq<string>, st: Joined, killOnError: bool) {
    && JoinDistinct(names, st)
    && (!(killOnError && HasFailure(st.reports)) ==> JoinQuiet(names, st))
    && (killOnError && HasFailure(st.reports) ==> st.pending == [])
  }

  /** Reported and pending names are registered, distinct and disjoint. */
  predicate JoinDistinct(names: seq<string>, st: Joined) {
    && Distinct(Reported(st.reports))
    && Distinct(st.pending)
    && Disjoint(Reported(st.reports), st.pending)
    && (forall x :: x in Reported(st.reports) ==> x in names)
    && (forall x :: x in st.pending ==> x in names)
  }

  /** No signal or error so far, and every name reported or pending. */
  predicate JoinQuiet(names: seq<string>, st: Joined) {
    && st.sent == [] && st.fault.None?
    && (forall x :: x in names ==> x in Reported(st.reports) || x in st.pending)
  }

  /** A round drawn from the pending list keeps names distinct and registered. */
  lemma AdvanceDistinct(names: seq<string>, st: Joined, r: Round, e: Effect)
    requires JoinDistinct(names, st)
    requires Distinct(Reported(r.reports)) && Distinct(r.pending) && Disjoint(Reported(r.reports), r.pending)
    requires forall x :: x in Reported(r.reports) ==> x in st.pending
    requires forall x :: x in r.pending ==> x in st.pending
    ensures JoinDistinct(names, Advance(st, r, e))
  {
    var prev := Reported(st.reports);
    var now := Reported(r.reports);
    assert Reported(st.reports + r.reports) == prev + now;
    DistinctConcat(prev, now);
  }

  /** A round that neither stops nor signals keeps every name accounted for. */
  lemma AdvanceQuiet(names: seq<string>, st: Joined, r: Round, e: Effect)
    requires JoinQuiet(names, st)
    requires e == Effect([], None)
    requires forall x :: x in st.pending ==> x in r.pending || x in Reported(r.reports)
    ensures JoinQuiet(names, Advance(st, r, e))
  {
    assert Reported(st.reports + r.reports) == Reported(st.reports) + Reported(r.reports);
  }

  /** A concatenation has a failure exactly when one of its parts has. */
  lemma HasFailureSplit(a: seq<Report>, b: seq<Report>)
    ensures HasFailure(a + b) <==> HasFailure(a) || HasFailure(b)
  {
    if HasFailure(a) {
      var i :| 0 <= i < |a| && a[i].Failed?;
      assert (a + b)[i] == a[i];
    }
    if HasFailure(b) {
      var i :| 0 <= i < |b| && b[i].Failed?;
      assert (a + b)[|a| + i] == b[i];
    }
    if HasFailure(a + b) {
      var i :| 0 <= i < |a + b| && (a + b)[i].Failed?;
      if i < |a| {
        assert a[i] == (a + b)[i];
      } else {
        assert b[i - |a|] == (a + b)[i];
      }
    }
  }

  /** Under kill-on-error, a failure appears only in the round that stops. */
  lemma AdvanceStops(st: Joined, r: Round, e: Effect)
    requires !HasFailure(st.reports)
    requires HasFailure(r.reports) ==> r.pending == []
    ensures HasFailure(Advance(st, r, e).reports) ==> Advance(st, r, e).pending == []
  {
    if HasFailure(st.reports + r.reports) {
      var i :| 0 <= i < |st.reports + r.reports| && (st.reports + r.reports)[i].Failed?;
      assert r.reports[i - |st.reports|].Failed?;
    }
  }

  /** One round keeps the join invariant. */
  lemma RoundKeepsInv(m: Manager, st: Joined, killOnError: bool, table: map<Signal, string>, o: RoundObs, r: Round)
    requires JoinInv(Names(m.registry), st, killOnError)
    requires |st.pending| > 0 && st.fault.None?
    requires r == JoinRound(st.pending, killOnError, o.poll)
    ensures JoinInv(Names(m.registry), Advance(st, r, RoundEffect(m, table, o, r)), killOnError)
  {
    var e := RoundEffect(m, table, o, r);
    JoinRoundDistinct(st.pending, killOnError, o.poll, r);
    AdvanceDistinct(Names(m.registry), st, r, e);
    JoinRoundStops(st.pending, killOnError, o.poll, r);
    if killOnError {
      AdvanceStops(st, r, e);
    }
    if !(killOnError && HasFailure(st.reports + r.reports)) {
      HasFailureSplit(st.reports, r.reports);
      JoinRoundCovers(st.pending, killOnError, o.poll, r);
      AdvanceQuiet(Names(m.registry), st, r, e);
    }
  }

  lemma {:induction false} JoinFromKeepsInv(m: Manager, st: Joined, killOnError: bool,
                                            table: map<Signal, string>, rounds: seq<RoundObs>)
    requires JoinInv(Names(m.registry), st, killOnError)
    ensures JoinInv(Names(m.registry), JoinFrom(m, st, killOnError, table, rounds), killOnError)
    decreases |rounds|
  {
    if !(|st.pending| == 0 || st.fault.Some? || |rounds| == 0) {
      var r := JoinRound(st.pending, killOnError, rounds[0].poll);
      RoundKeepsInv(m, st, killOnError, table, rounds[0], r);
      JoinFromKeepsInv(m, Advance(st, r, RoundEffect(m, table, rounds[0], r)), killOnError, table, rounds[1..]);
    }
  }

  /** With kill-on-error, a first round that finds a failed process ends
      `join`: a failure is reported, nothing stays pending, and the signals
      sent and the error raised are those of a verbose `kill_all`. */
  lemma FailureKillsAll(m: Manager, table: map<Signal, string>, o: RoundObs)
    requires exists x :: x in Names(m.registry) && Fails(o.poll, x)
    ensures var j := JoinAll(m, true, table, [o]);
            && HasFailure(j.reports)
            && j.pending == []
            && j.sent == KillAll(m, true, table, o.before, o.after).sent
            && j.fault == KillAll(m, true, table, o.before, o.after).fault
  {
    var r := JoinRound(Names(m.registry), true, o.poll);
    JoinRoundStopsIff(Names(m.registry), true, o.poll, r);
    JoinRoundStops(Names(m.registry), true, o.poll, r);
    var st := Advance(Joined(Names(m.registry), [], [], None), r, RoundEffect(m, table, o, r));
    assert |Names(m.registry)| > 0;
    assert [o][0] == o && [o][1..] == [];
    assert JoinAll(m, true, table, [o]) == JoinFrom(m, st, true, table, []);
    assert st.reports == r.reports;
  }

  /** Over a registry with unique names, `join` reports each process at most
      once and only registered ones; without kill-on-error it sends no
      signal and every process is either reported or still pending; with
      kill-on-error, a failure report means the pending list was emptied,
      and until one is reported the same holds as without it. */
  lemma JoinReportsOnce(m: Manager, killOnError: bool, table: map<Signal, string>, rounds: seq<RoundObs>)
    requires UniqueNames(m.registry)
    ensures var j := JoinAll(m, killOnError, table, rounds);
            && Distinct(Reported(j.reports))
            && (forall x :: x in Reported(j.reports) ==> x in Names(m.registry) && x !in j.pending)
            && (!killOnError ==> j.sent == [] && j.fault.None?)
            && (!killOnError ==> forall x :: x in Names(m.registry) ==> x in Reported(j.reports) || x in j.pending)
            && (killOnError && HasFailure(j.reports) ==> j.pending == [])
            && (!(killOnError && HasFailure(j.reports)) ==>
                  && j.sent == [] && j.fault.None?
                  && forall x :: x in Names(m.registry) ==> x in Reported(j.reports) || x in j.pending)
  {
    JoinFromKeepsInv(m, Joined(Names(m.registry), [], [], None), killOnError, table, rounds);
  }
}

=== FILE: text.dfy ===
/** Python's string primitives that the command builders rely on: the
    whitespace-splitting `str.split()`, `str.join`, `str.strip()` and
    `str.lower()`, with the laws that make `' '.join(s.split())` a
    whitespace normaliser. */
module Text {

  /** The characters Python 3's `str.split()` and `str.strip()` treat as
      whitespace (the Unicode white-space property). */
  predicate IsSpace(c: char) {
    || ('\U{9}' <= c <= '\U{D}')
    || ('\U{1C}' <= c <= '\U{20}')
    || c == '\U{85}' || c == '\U{A0}' || c == '\U{1680}'
    || ('\U{2000}' <= c <= '\U{200A}')
    || c == '\U{2028}' || c == '\U{2029}' || c == '\U{202F}'
    || c == '\U{205F}' || c == '\U{3000}'
  }

  /** Every character of `s` is whitespace (so `s.strip() == ''`). */
  predicate AllSpace(s: string) {
    forall i :: 0 <= i < |s| ==> IsSpace(s[i])
  }

  /** A token as `str.split()` produces it: non-empty, no whitespace. */
  predicate IsWord(w: string) {
    |w| > 0 && forall i :: 0 <= i < |w| ==> !IsSpace(w[i])
  }

  /** `s.endswith(t)`. */
  predicate EndsWith(s: string, t: string) {
    |t| <= |s| && s[|s| - |t|..] == t
  }

  /** `s.startswith(t)`. */
  predicate StartsWith(s: string, t: string) {
    |t| <= |s| && s[..|t|] == t
  }

  /** A line ending in a space-separated last field ends with that field. */
  lemma SpacedSuffix(s: string, front: string, last: string)
    requires s == front + " " + last
    ensures EndsWith(s, " " + last)
  {
    assert s == front + (" " + last);
  }

  /** The output shape of `' '.join(s.split())`: no whitespace at either end,
      every whitespace character is a plain space, and no two are adjacent. */
  predicate Normalized(r: string) {
    && (|r| > 0 ==> !IsSpace(r[0]) && !IsSpace(r[|r| - 1]))
    && (forall i :: 0 <= i < |r| && IsSpace(r[i]) ==> r[i] == ' ')
    && (forall i :: 0 <= i < |r| - 1 && IsSpace(r[i]) ==> !IsSpace(r[i + 1]))
  }

  /** Length of the leading run of non-whitespace characters of `s`. */
  function TokenLen(s: string): (n: nat)
    ensures n <= |s|
    ensures forall i :: 0 <= i < n ==> !IsSpace(s[i])
    ensures n < |s| ==> IsSpace(s[n])
  {
    if |s| == 0 || IsSpace(s[0]) then 0 else 1 + TokenLen(s[1..])
  }

  /** `s.split()` with no separator: the maximal whitespace-free runs of `s`,
      in order, with no empty strings. */
  function Words(s: string): (ws: seq<string>)
    ensures forall i :: 0 <= i < |ws| ==> IsWord(ws[i])
    ensures |ws| == 0 <==> AllSpace(s)
    decreases |s|
  {
    if |s| == 0 then []
    else if IsSpace(s[0]) then Words(s[1..])
    else
      var n := TokenLen(s);
      [s[..n]] + Words(s[n..])
  }

  /** `sep.join(parts)`. */
  function Join(sep: string, parts: seq<string>): string {
    if |parts| == 0 then ""
    else if |parts| == 1 then parts[0]
    else parts[0] + sep + Join(sep, parts[1..])
  }

  /** `' '.join(s.split())`: collapses every whitespace run of `s` into one
      space and trims both ends, keeping the tokens in order. */
  function Normalize(s: string): (r: string)
    ensures Normalized(r)
    ensures Words(r) == Words(s)
  {
    JoinWordsRoundTrip(Words(s));
    JoinWordsNormalized(Words(s));
    Join(" ", Words(s))
  }

  /** The length of the leading whitespace run of `s`. */
  function LeadLen(s: string): (n: nat)
    ensures n <= |s| && AllSpace(s[..n])
    ensures n < |s| ==> !IsSpace(s[n])
  {
    if |s| > 0 && IsSpace(s[0]) then
      var n := 1 + LeadLen(s[1..]);
      assert s[..n] == [s[0]] + s[1..][..n - 1];
      n
    else 0
  }

  /** Removes leading whitespace (`str.lstrip()`). */
  function StripLeft(s: string): (r: string)
    ensures |r| <= |s| && r == s[|s| - |r|..]
    ensures AllSpace(s[..|s| - |r|])
    ensures |r| > 0 ==> !IsSpace(r[0])
  {
    s[LeadLen(s)..]
  }

  /** Removes trailing whitespace (`str.rstrip()`). */
  function StripRight(s: string): (r: string)
    ensures |r| <= |s| && r == s[..|r|]
    ensures AllSpace(s[|r|..])
    ensures |r| > 0 ==> !IsSpace(r[|r| - 1])
  {
    if |s| > 0 && IsSpace(s[|s| - 1]) then StripRight(s[..|s| - 1]) else s
  }

  /** `str.strip()`: the result is the part of `s` that starts right after
      its leading whitespace and is followed only by whitespace, and it
      neither starts nor ends with whitespace. */
  function Strip(s: string): (r: string)
    ensures LeadLen(s) + |r| <= |s| && r == s[LeadLen(s)..LeadLen(s) + |r|]
    ensures AllSpace(s[LeadLen(s) + |r|..])
    ensures |r| > 0 ==> !IsSpace(r[0]) && !IsSpace(r[|r| - 1])
  {
    var l := StripLeft(s);
    var r := StripRight(l);
    StripEnds(l, r);
    TrimBounds(s, LeadLen(s), l, r);
    r
  }

  /** Cutting a suffix off a string that does not start with whitespace
      keeps its first character. */
  lemma StripEnds(l: string, r: string)
    requires |l| > 0 ==> !IsSpace(l[0])
    requires |r| <= |l| && r == l[..|r|]
    requires |r| > 0 ==> !IsSpace(r[|r| - 1])
    ensures |r| > 0 ==> !IsSpace(r[0]) && !IsSpace(r[|r| - 1])
  {
    if |r| > 0 { assert r[0] == l[0]; }
  }

  /** Cutting whitespace off both ends: `l` is `s` after a whitespace-only
      prefix and `r` is `l` before a whitespace-only suffix, so `r` sits in
      `s` between the two. */
  lemma TrimBounds(s: string, k: nat, l: string, r: string)
    requires k <= |s| && s[k..] == l && AllSpace(s[..k])
    requires |r| <= |l| && r == l[..|r|] && AllSpace(l[|r|..])
    ensures k <= |s| - |r| && s[k..k + |r|] == r && AllSpace(s[..k]) && AllSpace(s[k + |r|..])
  {
    SliceOfSuffix(s, k, l, |r|);
  }

  /** Slicing a suffix `l == s[k..]` is slicing `s` at shifted positions. */
  lemma SliceOfSuffix(s: string, k: nat, l: string, j: nat)
    requires k <= |s| && s[k..] == l && j <= |l|
    ensures s[k + j..] == l[j..]
    ensures s[k..k + j] == l[..j]
  {
    assert s[k..][j..] == s[k + j..];
    assert s[k..][..j] == s[k..k + j];
  }

  /** ASCII lower-casing of one character. */
  function LowerChar(c: char): char {
    if 'A' <= c <= 'Z' then (c as int + 32) as char else c
  }

  /** `str.lower()`, restricted to ASCII letters: no upper-case ASCII letter
      remains, and every other character is kept. */
  function Lower(s: string): (r: string)
    ensures |r| == |s|
    ensures forall i :: 0 <= i < |r| ==> !('A' <= r[i] <= 'Z')
    ensures forall i :: 0 <= i < |r| && !('A' <= s[i] <= 'Z') ==> r[i] == s[i]
    ensures forall i :: 0 <= i < |r| && 'A' <= s[i] <= 'Z' ==> r[i] as int == s[i] as int + 32
  {
    seq(|s|, i requires 0 <= i < |s| => LowerChar(s[i]))
  }

  /** The tokens of each part, in order. */
  function WordsOfEach(parts: seq<string>): seq<string> {
    if |parts| == 0 then [] else Words(parts[0]) + WordsOfEach(parts[1..])
  }

  // ----- Laws -----

  /** `TokenLen` is determined by where the first whitespace character is. */
  lemma TokenLenAt(s: string, k: nat)
    requires k <= |s|
    requires forall i :: 0 <= i < k ==> !IsSpace(s[i])
    requires k < |s| ==> IsSpace(s[k])
    ensures TokenLen(s) == k
  {
  }

  /** A single token splits into itself. */
  lemma WordsOfWord(w: string)
    requires IsWord(w)
    ensures Words(w) == [w]
  {
    TokenLenAt(w, |w|);
    assert w[..|w|] == w;
    assert w[|w|..] == [];
  }

  /** Splitting distributes over a concatenation whose seam is whitespace
      (or that has an empty side): no token straddles the seam. */
  lemma {:induction false} WordsAppend(a: string, b: string)
    requires |a| == 0 || |b| == 0 || IsSpace(a[|a| - 1]) || IsSpace(b[0])
    ensures Words(a + b) == Words(a) + Words(b)
    decreases |a|, 1
  {
    if |a| == 0 {
      assert a + b == b;
    } else if IsSpace(a[0]) {
      assert (a + b)[1..] == a[1..] + b;
      WordsAppend(a[1..], b);
    } else {
      WordsAppendToken(a, b);
    }
  }

  /** The case of `WordsAppend` where `a` starts with a token. */
  lemma {:induction false} WordsAppendToken(a: string, b: string)
    requires |a| > 0 && !IsSpace(a[0])
    requires |b| == 0 || IsSpace(a[|a| - 1]) || IsSpace(b[0])
    ensures Words(a + b) == Words(a) + Words(b)
    decreases |a|, 0
  {
    var n := TokenLen(a);
    if n < |a| {
      TokenLenAt(a + b, n);
      assert (a + b)[..n] == a[..n];
      assert (a + b)[n..] == a[n..] + b;
      WordsAppend(a[n..], b);
    } else if |b| == 0 {
      assert a + b == a;
    } else {
      TokenLenAt(a + b, |a|);
      assert (a + b)[..|a|] == a;
      assert (a + b)[|a|..] == b;
      WordsOfWord(a);
    }
  }

  /** Three tokens joined by single spaces split back into the three. */
  lemma ThreeWords(a: string, b: string, c: string)
    requires IsWord(a) && IsWord(b) && IsWord(c)
    ensures Words(a + " " + b + " " + c) == [a, b, c]
  {
    WordsSpaceJoin(a + " " + b, c);
    WordsSpaceJoin(a, b);
    WordsOfWord(a);
    WordsOfWord(b);
    WordsOfWord(c);
  }

  /** Joining with a space and splitting again separates the two sides. */
  lemma WordsSpaceJoin(a: string, b: string)
    ensures Words(a + " " + b) == Words(a) + Words(b)
  {
    var t := " " + b;
    assert t[0] == ' ' && t[1..] == b;
    WordsAppend(a, t);
    assert a + " " + b == a + t;
  }

  /** Splitting a space-join yields the tokens of the parts, in order: no
      token spans two parts, and whitespace inside a part still splits it. */
  lemma {:induction false} WordsOfJoin(parts: seq<string>)
    ensures Words(Join(" ", parts)) == WordsOfEach(parts)
  {
    if |parts| == 1 {
      assert parts[1..] == [];
      assert Words(parts[0]) + [] == Words(parts[0]);
    } else if |parts| > 1 {
      WordsOfJoin(parts[1..]);
      WordsSpaceJoin(parts[0], Join(" ", parts[1..]));
    }
  }

  /** `' '.join(ws).split() == ws` for whitespace-free, non-empty tokens. */
  lemma {:induction false} JoinWordsRoundTrip(ws: seq<string>)
    requires forall i :: 0 <= i < |ws| ==> IsWord(ws[i])
    ensures Words(Join(" ", ws)) == ws
  {
    if |ws| == 0 {
    } else if |ws| == 1 {
      WordsOfWord(ws[0]);
    } else {
      JoinWordsRoundTrip(ws[1..]);
      WordsSpaceJoin(ws[0], Join(" ", ws[1..]));
      WordsOfWord(ws[0]);
      assert ws == [ws[0]] + ws[1..];
    }
  }

  /** Joining tokens with single spaces yields a normalised string. */
  lemma {:induction false} JoinWordsNormalized(ws: seq<string>)
    requires forall i :: 0 <= i < |ws| ==> IsWord(ws[i])
    ensures Normalized(Join(" ", ws))
    ensures |ws| > 0 ==> |Join(" ", ws)| > 0
  {
    if |ws| == 0 {
    } else if |ws| == 1 {
      assert IsWord(ws[0]);
    } else {
      var w := ws[0];
      var rest := Join(" ", ws[1..]);
      JoinWordsNormalized(ws[1..]);
      assert IsWord(w);
      var r := w + " " + rest;
      assert r == Join(" ", ws);
      forall i | 0 <= i < |r| && IsSpace(r[i])
        ensures r[i] == ' '
        ensures i < |r| - 1 ==> !IsSpace(r[i + 1])
      {
        if i == |w| {
          assert r[i + 1] == rest[0];
        } else if i > |w| {
          assert r[i] == rest[i - |w| - 1];
          if i < |r| - 1 {
            assert r[i + 1] == rest[i - |w|];
          }
        }
      }
      assert r[|r| - 1] == rest[|rest| - 1];
    }
  }

  /** Normalising is joining the tokens with single spaces. */
  lemma NormalizeIsJoinOfWords(s: string)
    ensures Normalize(s) == Join(" ", Words(s))
  {
  }

  /** Normalising twice is the same as normalising once. */
  lemma NormalizeIdempotent(s: string)
    ensures Normalize(Normalize(s)) == Normalize(s)
  {
  }

  /** A string already in normal form is left untouched. */
  lemma NormalizeFixpoint(s: string)
    requires Normalized(s)
    ensures Normalize(s) == s
  {
    NormalizedIsJoin(s);
  }

  /** A normalised string is the space-join of its own tokens. */
  lemma {:induction false} NormalizedIsJoin(r: string)
    requires Normalized(r)
    ensures Join(" ", Words(r)) == r
    decreases |r|
  {
    if |r| > 0 {
      var n := TokenLen(r);
      var w := r[..n];
      assert IsWord(w) by {
        assert !IsSpace(r[0]);
      }
      WordsOfWord(w);
      if n == |r| {
        assert w == r;
      } else {
        var tail := r[n + 1..];
        NormalizedSuffix(r, n + 1);
        assert r == w + " " + tail;
        WordsSpaceJoin(w, tail);
        NormalizedIsJoin(tail);
        assert !AllSpace(tail) by {
          assert !IsSpace(tail[0]);
        }
        JoinCons(" ", w, Words(tail));
      }
    }
  }

  /** `sep.join([w] + ws)` for a non-empty `ws`. */
  lemma JoinCons(sep: string, w: string, ws: seq<string>)
    requires |ws| > 0
    ensures Join(sep, [w] + ws) == w + sep + Join(sep, ws)
  {
    assert ([w] + ws)[1..] == ws;
  }

  /** What follows a space of a normalised string is normalised and starts
      with a token. */
  lemma NormalizedSuffix(r: string, k: nat)
    requires Normalized(r)
    requires 0 < k <= |r| && IsSpace(r[k - 1])
    ensures k < |r| && !IsSpace(r[k])
    ensures Normalized(r[k..])
  {
    var tail := r[k..];
    forall i | 0 <= i < |tail| && IsSpace(tail[i])
      ensures tail[i] == ' '
      ensures i < |tail| - 1 ==> !IsSpace(tail[i + 1])
    {
      assert tail[i] == r[k + i];
      if i < |tail| - 1 {
        assert tail[i + 1] == r[k + 1 + i];
      }
    }
  }

  /** `strip()` yields the empty string exactly for all-whitespace input. */
  lemma StripEmptyIffAllSpace(s: string)
    ensures Strip(s) == "" <==> AllSpace(s)
  {
    var l := StripLeft(s);
    if Strip(s) == "" {
      assert AllSpace(l[0..]);
      assert s == s[..|s| - |l|] + l;
      forall i | 0 <= i < |s| ensures IsSpace(s[i]) {
        assert s[i] == s[..|s| - |l|][i];
      }
    }
  }
}

=== FILE: wrapper.dfy ===
/** The older `Dockerly` class and console entry points (dockerly/wrapper.py):
    a lighter configuration check, `docker run` lines formatted without any
    whitespace normalisation, and the argv handling of `main_exec`,
    `main_bash` and `main_python`. `sys.argv`, `os.getcwd` and `os.system`
    become parameters or are left out. */
module Wrapper {
  import opened Results
  import opened Text
  import opened Paths
  import opened DockerConfig
  import Dockerly

  /** A constructed wrapper: the resolved roots and the image value. */
  datatype Wrapper = Wrapper(containerRoot: string, hostRoot: string, defaultImage: Value)

  /** Everything this constructor checks (there is no placeholder check). */
  predicate Acceptable(config: Config) {
    && HasRequiredKeys(config)
    && config["container_root"].Str? && IsAbs(config["container_root"].s)
    && config["host_root"].Str?
  }

  /** `Dockerly.__init__` after the file is loaded: the three required keys,
      an absolute string `container_root` and a string `host_root`, resolved
      through `expanduser` then `realpath`. */
  function New(config: Config, host: Host): (r: Result<Wrapper, ConfigError>)
    ensures r.Success? <==> Acceptable(config)
    ensures FirstMissing(config, RequiredKeys).Some? ==>
              r == Failure(MissingKey(FirstMissing(config, RequiredKeys).value))
    ensures r.Success? ==>
              && r.value.containerRoot == config["container_root"].s
              && IsAbs(r.value.containerRoot)
              && r.value.hostRoot == host.realpath(host.expanduser(config["host_root"].s))
              && r.value.defaultImage == config["default_image"]
  {
    var missing := FirstMissing(config, RequiredKeys);
    RequiredKeysPresent(config);
    if missing.Some? then Failure(MissingKey(missing.value))
    else if !config["container_root"].Str? then Failure(NotText("container_root"))
    else if !IsAbs(config["container_root"].s) then Failure(NotAbsolute(config["container_root"].s))
    else if !config["host_root"].Str? then Failure(NotText("host_root"))
    else
      Success(Wrapper(
        config["container_root"].s,
        host.realpath(host.expanduser(config["host_root"].s)),
        config["default_image"]))
  }

  /** The executable this version always runs. */
  const Docker: string := "docker"

  /** The fixed start of every line of this version, and its tokens. */
  const DockerRunLine: string := Docker + " " + RunVerb
  const DockerRun: seq<string> := [Docker] + RunFlags

  lemma DockerRunWords()
    ensures Words(DockerRunLine) == DockerRun
  {
    DockerIsWord();
    WordsSpaceJoin(Docker, RunVerb);
    WordsOfWord(Docker);
    RunVerbWords();
  }

  /** The line `run` formats. */
  function RunLine(w: Wrapper, host: Host, cmd: string): string {
    DockerRunLine + " " + MountFlag(host, w.hostRoot, w.containerRoot, false)
    + " " + Render(host, w.defaultImage) + " " + host.quote(cmd)
  }

  /** The tokens of `RunLine`: the fixed prefix, mount flag, image, quoted command. */
  lemma RunLineWords(w: Wrapper, host: Host, cmd: string)
    ensures Words(RunLine(w, host, cmd)) == DockerRun + Words(MountFlag(host, w.hostRoot, w.containerRoot, false))
                                            + Words(Render(host, w.defaultImage)) + Words(host.quote(cmd))
  {
    var mount := MountFlag(host, w.hostRoot, w.containerRoot, false);
    var image := Render(host, w.defaultImage);
    DockerRunWords();
    WordsSpaceJoin(DockerRunLine, mount);
    WordsSpaceJoin(DockerRunLine + " " + mount, image);
    WordsSpaceJoin(DockerRunLine + " " + mount + " " + image, host.quote(cmd));
  }

  /** `run(cmd)`: `docker run -ti --privileged <mount> <image> <quoted cmd>`,
      formatted verbatim: it ends with the quoted command exactly as quoted. */
  function Run(w: Wrapper, host: Host, cmd: string): (r: string)
    ensures EndsWith(r, " " + host.quote(cmd))
    ensures Words(r) == DockerRun + Words(MountFlag(host, w.hostRoot, w.containerRoot, false))
                        + Words(Render(host, w.defaultImage)) + Words(host.quote(cmd))
  {
    RunLineWords(w, host, cmd);
    SpacedSuffix(RunLine(w, host, cmd), DockerRunLine + " " + MountFlag(host, w.hostRoot, w.containerRoot, false)
                 + " " + Render(host, w.defaultImage), host.quote(cmd));
    RunLine(w, host, cmd)
  }

  /** The start of every `run_from_cwd` line: the fixed prefix and the
      working-directory option. */
  function CwdHead(w: Wrapper, host: Host, cwd: string): string {
    DockerRunLine + " " + Workdir(ContainerCwd(host, w.containerRoot, w.hostRoot, cwd)) + " "
  }

  /** What follows the head: mount flag, image and quoted command. */
  function CwdTail(w: Wrapper, host: Host, cmd: string): string {
    MountFlag(host, w.hostRoot, w.containerRoot, false) + " " + Render(host, w.defaultImage)
    + " " + host.quote(cmd)
  }

  /** `run_from_cwd(cmd)`: refuses a working directory outside `host_root`;
      otherwise the line carries `--workdir="<projected dir>"` directly after
      `--privileged`, again without whitespace normalisation. */
  function RunFromCwd(w: Wrapper, host: Host, cmd: string, cwd: string): (r: Result<string, ConfigError>)
    ensures r.Success? <==> IsInPath(host.realpath, cwd, w.hostRoot)
    ensures r.Failure? ==> r.error == OutsideHostRoot(cwd)
    ensures r.Success? ==> StartsWith(r.value, CwdHead(w, host, cwd))
    ensures r.Success? ==> EndsWith(r.value, " " + host.quote(cmd))
    ensures r.Success? ==>
              Words(r.value) == DockerRun + Words(Workdir(ContainerCwd(host, w.containerRoot, w.hostRoot, cwd)))
                                + Words(MountFlag(host, w.hostRoot, w.containerRoot, false))
                                + Words(Render(host, w.defaultImage)) + Words(host.quote(cmd))
  {
    if !IsInPath(host.realpath, cwd, w.hostRoot) then Failure(OutsideHostRoot(cwd))
    else
      CwdLineWords(w, host, cmd, cwd);
      CwdLineEnds(w, host, cmd, cwd);
      Success(CwdHead(w, host, cwd) + CwdTail(w, host, cmd))
  }

  /** A `run_from_cwd` line starts with its head and ends with the quoted
      command after a space. */
  lemma CwdLineEnds(w: Wrapper, host: Host, cmd: string, cwd: string)
    ensures StartsWith(CwdHead(w, host, cwd) + CwdTail(w, host, cmd), CwdHead(w, host, cwd))
    ensures EndsWith(CwdHead(w, host, cwd) + CwdTail(w, host, cmd), " " + host.quote(cmd))
  {
    var head := CwdHead(w, host, cwd);
    var body := MountFlag(host, w.hostRoot, w.containerRoot, false) + " " + Render(host, w.defaultImage);
    assert CwdTail(w, host, cmd) == body + " " + host.quote(cmd);
    SpacedSuffix(head + CwdTail(w, host, cmd), head + body, host.quote(cmd));
    assert (head + CwdTail(w, host, cmd))[..|head|] == head;
  }

  /** The tokens of a `run_from_cwd` line: the fixed prefix, the
      working-directory option, mount flag, image and quoted command. */
  lemma CwdLineWords(w: Wrapper, host: Host, cmd: string, cwd: string)
    ensures Words(CwdHead(w, host, cwd) + CwdTail(w, host, cmd))
            == DockerRun + Words(Workdir(ContainerCwd(host, w.containerRoot, w.hostRoot, cwd)))
               + Words(MountFlag(host, w.hostRoot, w.containerRoot, false))
               + Words(Render(host, w.defaultImage)) + Words(host.quote(cmd))
  {
    var workdir := Workdir(ContainerCwd(host, w.containerRoot, w.hostRoot, cwd));
    var mount := MountFlag(host, w.hostRoot, w.containerRoot, false);
    var image := Render(host, w.defaultImage);
    var quoted := host.quote(cmd);
    assert CwdHead(w, host, cwd) + CwdTail(w, host, cmd)
           == DockerRunLine + " " + workdir + " " + mount + " " + image + " " + quoted;
    DockerRunWords();
    WordsSpaceJoin(DockerRunLine, workdir);
    WordsSpaceJoin(DockerRunLine + " " + workdir, mount);
    WordsSpaceJoin(DockerRunLine + " " + workdir + " " + mount, image);
    WordsSpaceJoin(DockerRunLine + " " + workdir + " " + mount + " " + image, quoted);
  }

  /** `_collect_sysargs(argv[1:])`: a single argument is passed through
      verbatim; otherwise every argument is shell-quoted and the results are
      joined with single spaces (no arguments give the empty string). */
  function CollectSysargs(args: seq<string>, quote: string -> string): (r: string)
    ensures |args| == 1 ==> r == args[0]
    ensures |args| == 0 ==> r == ""
  {
    if |args| == 1 then args[0]
    else Join(" ", seq(|args|, i requires 0 <= i < |args| => quote(args[i])))
  }

  /** With two or more arguments whose quoted forms are whitespace-free,
      splitting the collected command recovers exactly the quoted arguments. */
  lemma CollectSysargsTokens(args: seq<string>, quote: string -> string)
    requires |args| != 1
    requires forall i :: 0 <= i < |args| ==> IsWord(quote(args[i]))
    ensures Words(CollectSysargs(args, quote)) == seq(|args|, i requires 0 <= i < |args| => quote(args[i]))
  {
    JoinWordsRoundTrip(seq(|args|, i requires 0 <= i < |args| => quote(args[i])));
  }

  /** With no hypothesis on the quoting, splitting the collected command of
      zero or several arguments yields the tokens of each quoted argument,
      in argument order. */
  lemma CollectSysargsWords(args: seq<string>, quote: string -> string)
    requires |args| != 1
    ensures Words(CollectSysargs(args, quote)) == WordsOfEach(seq(|args|, i requires 0 <= i < |args| => quote(args[i])))
  {
    WordsOfJoin(seq(|args|, i requires 0 <= i < |args| => quote(args[i])));
  }

  /** `if cmd.strip() == '': cmd = 'bash'`: a blank command becomes `bash`,
      anything else is kept. */
  function DefaultToBash(cmd: string): (r: string)
    ensures AllSpace(cmd) ==> r == "bash"
    ensures !AllSpace(cmd) ==> r == cmd
  {
    StripEmptyIffAllSpace(cmd);
    if Strip(cmd) == "" then "bash" else cmd
  }

  /** `main_exec`: collect argv, construct the wrapper, default a blank
      command to `bash`, and run it. */
  function MainExec(args: seq<string>, config: Config, host: Host): (r: Result<string, ConfigError>)
    ensures r.Success? <==> Acceptable(config)
    ensures r.Success? && |args| == 0 ==> EndsWith(r.value, " " + host.quote("bash"))
    ensures r.Success? && |args| == 1 && AllSpace(args[0]) ==> EndsWith(r.value, " " + host.quote("bash"))
    ensures r.Success? && |args| == 1 && !AllSpace(args[0]) ==>
              EndsWith(r.value, " " + host.quote(args[0]))
  {
    var cmd := CollectSysargs(args, host.quote);
    var w :- New(config, host);
    Success(Run(w, host, DefaultToBash(cmd)))
  }

  /** `main_bash`: as `main_exec`, but run from the current directory. */
  function MainBash(args: seq<string>, config: Config, host: Host, cwd: string): (r: Result<string, ConfigError>)
    ensures r.Success? <==> Acceptable(config) && IsInPath(host.realpath, cwd, New(config, host).value.hostRoot)
    ensures r.Success? && |args| == 0 ==> EndsWith(r.value, " " + host.quote("bash"))
    ensures r.Success? && |args| == 1 && AllSpace(args[0]) ==> EndsWith(r.value, " " + host.quote("bash"))
    ensures r.Success? && |args| == 1 && !AllSpace(args[0]) ==>
              EndsWith(r.value, " " + host.quote(args[0]))
  {
    var cmd := CollectSysargs(args, host.quote);
    var w :- New(config, host);
    RunFromCwd(w, host, DefaultToBash(cmd), cwd)
  }

  /** `main_python`: runs `python <cmd>` from the current directory, with no
      `bash` default: no arguments run `python ` alone. */
  function MainPython(args: seq<string>, config: Config, host: Host, cwd: string): (r: Result<string, ConfigError>)
    ensures r.Success? <==> Acceptable(config) && IsInPath(host.realpath, cwd, New(config, host).value.hostRoot)
    ensures r.Success? ==> EndsWith(r.value, " " + host.quote("python " + CollectSysargs(args, host.quote)))
    ensures r.Success? && |args| == 0 ==> EndsWith(r.value, " " + host.quote("python "))
  {
    var cmd := CollectSysargs(args, host.quote);
    var w :- New(config, host);
    assert |args| == 0 ==> "python " + cmd == "python ";
    RunFromCwd(w, host, "python " + cmd, cwd)
  }

  /** A configuration still holding the template placeholder is accepted
      here but refused by the newer class. */
  lemma PlaceholderOnlyRefusedByNewer(config: Config, host: Host)
    requires Acceptable(config)
    requires config["default_image"] == Str(Placeholder)
    ensures New(config, host).Success?
    ensures Dockerly.New(config, host) == Failure(Unfilled)
  {
    assert Dockerly.HasPlaceholder(config);
    RequiredKeysPresent(config);
  }

  /** With no ports, no other options and the plain `docker` executable,
      the newer class's line is this version's line with its whitespace
      collapsed. */
  lemma RunAgreesWithNewer(w: Wrapper, host: Host, cmd: string)
    ensures Dockerly.Run(Dockerly.Dockerly(w.containerRoot, w.hostRoot, List([]), w.defaultImage, Docker), host, cmd, [])
            == Success(Normalize(Run(w, host, cmd)))
  {
    var d := Dockerly.Dockerly(w.containerRoot, w.hostRoot, List([]), w.defaultImage, Docker);
    var mount := Words(MountFlag(host, w.hostRoot, w.containerRoot, false));
    var image := Words(Render(host, w.defaultImage));
    var quoted := Words(host.quote(cmd));
    DockerIsWord();
    NoPortsTokens(d, host, cmd, mount, image, quoted);
    NormalizedRun(Run(w, host, cmd), mount, image, quoted);
  }

  /** The plain executable is one token. */
  lemma DockerIsWord()
    ensures IsWord(Docker)
  {
  }

  /** Normalising a line whose tokens are known joins those tokens. */
  lemma NormalizedRun(line: string, mount: seq<string>, image: seq<string>, quoted: seq<string>)
    requires Words(line) == DockerRun + mount + image + quoted
    ensures Normalize(line) == Join(" ", DockerRun + mount + image + quoted)
  {
    NormalizeIsJoinOfWords(line);
  }

  /** Without ports or other options, the newer class's tokens are the
      executable and fixed flags, the mount flag, image and quoted command. */
  lemma NoPortsTokens(d: Dockerly.Dockerly, host: Host, cmd: string,
                      mount: seq<string>, image: seq<string>, quoted: seq<string>)
    requires d.ports == List([]) && IsWord(d.exe)
    requires mount == Words(MountFlag(host, d.hostRoot, d.containerRoot, false))
    requires image == Words(Render(host, d.defaultImage))
    requires quoted == Words(host.quote(cmd))
    ensures Dockerly.Run(d, host, cmd, []) ==
            Success(Join(" ", [d.exe] + RunFlags + mount + image + quoted))
  {
    NoPortsRun(d, host, cmd);
    NoPortsRunTokens(d, host, cmd, mount, image, quoted);
  }

  /** With an empty port list, `run` succeeds with its run tokens. */
  lemma NoPortsRun(d: Dockerly.Dockerly, host: Host, cmd: string)
    requires d.ports == List([])
    ensures Dockerly.Run(d, host, cmd, []) == Success(Join(" ", Dockerly.RunTokens(d, host, cmd, [], [])))
  {
    assert Dockerly.PortSpecs(host, d.ports).value == [];
  }

  /** With no ports and no other options, the run tokens lose those fields. */
  lemma NoPortsRunTokens(d: Dockerly.Dockerly, host: Host, cmd: string,
                         mount: seq<string>, image: seq<string>, quoted: seq<string>)
    requires IsWord(d.exe)
    requires mount == Words(MountFlag(host, d.hostRoot, d.containerRoot, false))
    requires image == Words(Render(host, d.defaultImage))
    requires quoted == Words(host.quote(cmd))
    ensures Dockerly.RunTokens(d, host, cmd, [], []) == [d.exe] + RunFlags + mount + image + quoted
  {
    WordsOfWord(d.exe);
    assert Words(Join(" ", [])) == [];
    assert Dockerly.PortTokens([]) == [];
  }
}
